=== FILE: README.md ===
# Inventory Management API — token-bucket limiter and item handlers in Dafny

This project models the core of a small Go inventory service built on gin and
GORM. The model has two parts.

- **The admission limiter** (`starter/middleware/rate_limiter.go`). A single
  token bucket is shared by every request. It starts full with 5 tokens, and a
  call takes a token if one is left. The bucket refills lazily: one token per
  whole second since the last refill, up to its capacity. When a call refills,
  the leftover fraction of a second is dropped. A refused request gets a 429
  reply with a fixed error message and a `retry_after` of `"1 second"`.
- **The inventory handlers** (`starter/handlers/item_handler.go`):
  - `GetAllItems` normalises the query string and filters by `min_stock` and a
    case-insensitive `name` substring. It orders rows by a whitelisted column,
    then cuts out one page and reports `total`, `total_pages`, `has_next` and
    `has_prev`.
  - `GetItemByID`, `CreateItem`, `UpdateItem` and `DeleteItem` run over an
    in-memory store. This includes the `binding` tags of `models.Item` that
    `ShouldBindJSON` checks, the create/update stock and price checks,
    the identifier rule (a fresh UUID on create, the existing row's identifier
    on update), and the 404 paths.

How the model represents the source:

- Time and `time.Duration` are natural numbers of nanoseconds. `time.Now()` is
  a parameter of every step.
- The bucket's mutex makes `Allow` one atomic step, so the limiter is a pure
  function from a bucket and a time to a new bucket and a decision.
- A sequence of calls is `RateLimiterProps.Run`.
- Go's 64-bit `int` arithmetic and `strconv.Atoi` (including its clamping of
  out-of-range input) are written out in `GoInt`.
- The database is a `seq<Item>`. Which store call fails, if any, is a `DbFault`
  input.
- The request body is a `Body` input: the `Item` the JSON decodes to, or the
  decoder's error. The UUID a create assigns is an input too.

Modules: `Wrappers` (Option/Result), `GoInt`, `Models`, `Http`, `RateLimiter`,
`RateLimiterProps` (properties of call sequences), `Text` (ASCII lower-casing,
substring test), `Ordering` (the `ORDER BY`), `ListQuery` (`GetAllItems`),
`ItemMutations` (get, create, update, delete) and `Scenarios` (the situations
the repository's API tests set up, as lemmas).

The natural throughput bound for a token bucket is `capacity + W / refillRate`
calls in a window of length `W`. The limiter keeps it for every window that
opens with a refill, construction included (`ThroughputSinceConstruction`,
`WindowOpensWithRefill`). A window that opens just before a refill can admit
one call more: `SixGrantsInOneNanosecond` gets six calls through within one
nanosecond. So, for an arbitrary window, `ThroughputInWindow` states the bound
with `+ 1`.

Two assertions in the repository's API tests disagree with the handler, and
the model follows the handler:
- For page 2 of 15 rows with `page_size=5`, the test expects 2 rows. The
  handler returns 5 (`SecondPageOfFifteen`).
- For `min_stock=20` over the three-item fixture, the test expects a total of
  2. The handler counts 1 (`MinStockTwenty`).

Both assertions sit in branches that run only when the request was not
rate-limited.

## Model

| member | source | states |
|---|---|---|
| RateLimiter.NewTokenBucket | starter/middleware/rate_limiter.go:19-26 | A new bucket starts full (tokens = capacity), keeps the given rate and is stamped with the construction time. It is a valid bucket whenever the capacity is non-negative and the rate positive. |
| RateLimiter.TruncDiv | starter/middleware/rate_limiter.go:35 | Go's `elapsed / refillRate` truncates toward zero. For a non-negative elapsed time and a positive rate it is the floor quotient. For a negative rate it is never positive, so such a bucket never refills. |
| RateLimiter.Refill | starter/middleware/rate_limiter.go:32-39 | Capacity and rate are unchanged. If no whole interval has elapsed the bucket is untouched. Otherwise `lastRefill` becomes `now`, dropping the part-interval. `lastRefill` never moves backwards or past `now`. Validity is preserved. |
| RateLimiter.TokensToAdd | starter/middleware/rate_limiter.go:34-35 | For a positive rate, the tokens due are the whole intervals elapsed since the last refill, and some are due iff at least one whole interval has passed. A negative rate never makes any due. |
| RateLimiter.RefillAdds | starter/middleware/rate_limiter.go:35-37 | A refill adds exactly `min(capacity - tokens, elapsed / refillRate)` tokens. |
| RateLimiter.Min | starter/middleware/rate_limiter.go:48-53 | The result is one of the two arguments and no larger than either. |
| RateLimiter.Allow | starter/middleware/rate_limiter.go:28-46 | A call is admitted iff the refilled bucket holds a token. An admitted call leaves the refilled bucket minus one token; a refused call leaves the refilled bucket. A valid bucket stays valid. |
| RateLimiter.Admit | starter/middleware/rate_limiter.go:55-69 | The request proceeds iff the refilled bucket holds a token. Otherwise it is rejected with 429, "Rate limit exceeded. Please try again later." and retry hint "1 second". The bucket evolves exactly as under `Allow`. |
| RateLimiter.ProductionBucket | starter/middleware/rate_limiter.go:56 | The middleware's bucket is valid, holds 5 tokens, refills one per second and is stamped with the set-up time. |
| RateLimiterProps.Run | starter/middleware/rate_limiter.go:58-68 | Successive requests on the one shared bucket get one decision each. Capacity and rate never change, `lastRefill` never moves backwards, and validity is preserved along the run. |
| RateLimiterProps.RunAccounting | starter/middleware/rate_limiter.go:32-45 | Over any run, admitted calls plus the tokens left are at most the starting tokens plus one per whole interval between the first and the final `lastRefill`. The final `lastRefill` is no later than the last call. |
| RateLimiterProps.StepAccounting | starter/middleware/rate_limiter.go:32-45 | One call: the token it takes plus those it leaves were there before it or came with its own refill. |
| RateLimiterProps.ThroughputSinceConstruction | starter/middleware/rate_limiter.go:19-46 | From construction at `t0`, at most `capacity + (tLast - t0) / refillRate` calls are admitted. |
| RateLimiterProps.WindowOpensWithRefill | starter/middleware/rate_limiter.go:32-45 | In a window `[s, tLast]` whose first call refills, at most `capacity + (tLast - s) / refillRate` calls are admitted, with no `+ 1`. |
| RateLimiterProps.BoundAfterRefillAt | starter/middleware/rate_limiter.go:32-45 | Once the bucket was refilled at or after `s`, the rest of a run admits at most its current tokens plus one per whole interval from `s` to the last call. |
| RateLimiterProps.SpentWithinCapacity | starter/middleware/rate_limiter.go:32-45 | A call that refills stamps the bucket with its own time, and the token it takes plus those it leaves are at most the capacity. |
| RateLimiterProps.ThroughputInWindow | starter/middleware/rate_limiter.go:28-46 | In any window `[s, tLast]` after the last refill, at most `capacity + (tLast - s) / refillRate + 1` calls are admitted. |
| RateLimiterProps.BurstWithinInterval | starter/middleware/rate_limiter.go:35-45 | Within one interval of the last refill, call `i` is admitted iff `i` is below the starting token count. |
| RateLimiterProps.TakeWithinInterval | starter/middleware/rate_limiter.go:35-45 | A call less than one interval after the last refill adds nothing. It takes a token if there is one and otherwise leaves the bucket unchanged. |
| RateLimiterProps.FreshBucketBurst | starter/middleware/rate_limiter.go:19-46 | A new bucket admits its first `capacity` calls within the first interval and refuses the next. |
| RateLimiterProps.AllowedAfterInterval | starter/middleware/rate_limiter.go:32-43 | A bucket of capacity at least 1 admits any call made a whole interval or more after its last refill, even when drained. |
| RateLimiterProps.ZeroCapacityDeniesAll | starter/middleware/rate_limiter.go:37-45 | A bucket of capacity 0 admits nothing, however long the run. |
| GoInt.Wrap64 | starter/handlers/item_handler.go:76 | The result is a Go `int`, congruent to the mathematical value modulo 2^64, and equal to it when that value fits. |
| GoInt.ScanUint | starter/handlers/item_handler.go:30-31 | The empty string is a syntax error. A non-empty digit string, leading zeros included, scans to its decimal value when that is below 2^64 and is a range error otherwise. A non-digit met while the digits before it still fit is a syntax error, and a digit prefix that no longer fits is a range error whatever follows. A syntax error means the string is empty or holds a non-digit. |
| GoInt.Atoi | starter/handlers/item_handler.go:30-31 | The value is always a Go `int`. The empty string, any string without a digit, and any syntax error after the optional sign give `(0, error)`. A range error gives `MinInt64` or `MaxInt64` by the sign, with an error. A signed digit string gives its value with no error when it fits in int64, and otherwise that clamp with an error. |
| GoInt.AtoiShowInt | starter/handlers/item_handler.go:30-31 | `Atoi` inverts decimal rendering on the whole int64 range. |
| ListQuery.DefaultQuery | starter/handlers/item_handler.go:30-41 | `c.DefaultQuery` gives the parameter's value when it is present, even if empty, and the default only when it is absent. |
| ListQuery.QueryParam | starter/handlers/item_handler.go:56-57 | `c.Query` gives the parameter's value when present and "" when absent. |
| ListQuery.PageParam | starter/handlers/item_handler.go:30-35 | The page is in `[1, MaxInt64]` and is 1 when absent. A parsed value of at least 1 is kept, and any value `Atoi` returns below 1 becomes 1, whether or not it parsed. A value that fails to parse yields either 1 or `MaxInt64` (an overflow clamped to the top). |
| ListQuery.PageSizeParam | starter/handlers/item_handler.go:31-38 | The page size is in `[1, 100]`. A parsed value in that range is kept; anything else, an absent key or unparsable text gives 10. |
| ListQuery.PageParamRoundTrip | starter/handlers/item_handler.go:30-35 | Every page number in `[1, MaxInt64]` written in decimal is read back unchanged. |
| ListQuery.PageSizeParamRoundTrip | starter/handlers/item_handler.go:31-38 | Every page size in `[1, 100]` written in decimal is read back unchanged. |
| ListQuery.SortByParam | starter/handlers/item_handler.go:40-50 | The sort column is always one of name, stock and price. A whitelisted value is kept; anything else becomes "name". |
| ListQuery.SortOrderParam | starter/handlers/item_handler.go:41-54 | The order is "asc" or "desc". Those two are kept; anything else becomes "asc". |
| ListQuery.SortKeyOf | starter/handlers/item_handler.go:77 | A whitelisted column orders by that column, and anything else by name. |
| ListQuery.DirectionOf | starter/handlers/item_handler.go:77 | The order is descending iff the parameter is "desc". |
| ListQuery.SortParamsStable | starter/handlers/item_handler.go:40-54 | Each whitelisted column names exactly one sort key. Normalised sort parameters are fixed points of normalisation. |
| ListQuery.FilterParams | starter/handlers/item_handler.go:56-65 | The `min_stock` filter applies iff the parameter is non-empty and parses, with the parsed value. The name filter is the raw `name` parameter. |
| ListQuery.Matches | starter/handlers/item_handler.go:61-69 | A row matches iff its stock reaches `min_stock` when that filter applies, and the lower-cased filter text occurs in its lower-cased name when the name filter is non-empty. |
| ListQuery.ApplyFilter | starter/handlers/item_handler.go:59-69 | A row is kept iff it is in the store and matches. Each matching row is kept as often as the store holds it, and non-matching rows not at all. |
| ListQuery.NoFilterKeepsAll | starter/handlers/item_handler.go:61-69 | Without `min_stock` and `name` parameters every row is counted, in store order. |
| ListQuery.Offset | starter/handlers/item_handler.go:76 | The offset of page `p` is `(p - 1) * pageSize`, a natural number (the corrected, non-wrapping reading). |
| ListQuery.OffsetAsWritten | starter/handlers/item_handler.go:76 | The Go offset is an int64 congruent to `(p - 1) * pageSize` modulo 2^64. |
| ListQuery.OffsetAsWrittenAgrees | starter/handlers/item_handler.go:76 | While the product fits in int64, the Go offset equals the intended one. |
| ListQuery.OffsetAsWrittenGoesNegative | starter/handlers/item_handler.go:76 | With page `MaxInt64` and the default page size, the Go offset is -20. |
| ListQuery.OffsetAsWrittenWrapsToZero | starter/handlers/item_handler.go:76 | With page 2^60 + 1 and page size 16, the Go offset wraps to 0 while the intended offset is 2^64. |
| ListQuery.TotalPages | starter/handlers/item_handler.go:86 | `total_pages` is the ceiling of `total / pageSize`: enough pages for every row, and no empty last page. |
| ListQuery.HasNextIffMoreRows | starter/handlers/item_handler.go:86-87 | `page < total_pages` iff rows remain after this page. |
| ListQuery.HasPrevIffSkipsRows | starter/handlers/item_handler.go:88 | `page > 1` iff this page skips rows. |
| ListQuery.PageNonEmptyIff | starter/handlers/item_handler.go:76-86 | A page holds rows iff its number is at most `total_pages`. |
| ListQuery.PageOf | starter/handlers/item_handler.go:79 | `Limit(n).Offset(k)` returns the rows from `k`, at most `n` of them, in order, and none when `k` is past the end. |
| ListQuery.OrderedMatches | starter/handlers/item_handler.go:77-79 | The ordered query result is a permutation of the filtered rows (each matching row as often as stored), as many as were counted, sorted by the requested key and direction. |
| ListQuery.Paginate | starter/handlers/item_handler.go:76-98 | The response carries the page's rows at the page's offset: `min(pageSize, total - offset)` of them, and none past the end. It also carries the total and the ceiling page count. `has_next` means rows remain after the page, `has_prev` means rows precede it, and the page is non-empty iff `page <= total_pages`. |
| ListQuery.GetAllItems | starter/handlers/item_handler.go:26-101 | A failing count or fetch is a 500 with its message; otherwise the page of the matching rows. `total` counts all matches, page and size are normalised, and every returned row is a stored, matching row, in the requested order. |
| ListQuery.PageFacts | starter/handlers/item_handler.go:79 | A page cut from sorted rows is sorted, and contains only those rows. |
| Text.LowerChar | starter/handlers/item_handler.go:68 | Upper-case ASCII letters map to lower case, everything else is unchanged, and no upper-case letter remains. |
| Text.Lower | starter/handlers/item_handler.go:68 | Lower-casing keeps the length and maps every character independently. |
| Text.Contains | starter/handlers/item_handler.go:68 | A match needs a needle no longer than the name, and a needle at the start of the name always matches. |
| Text.ContainsIgnoreCase | starter/handlers/item_handler.go:68 | `LOWER(name) LIKE '%x%'` with `x` lower-cased holds iff the lower-cased filter occurs at some position of the lower-cased name. |
| Text.ContainsIff | starter/handlers/item_handler.go:68 | The `LIKE '%x%'` test holds iff the needle occurs at some position of the name. |
| Text.AbsentFirstChar | starter/handlers/item_handler.go:68 | A needle whose first character is not in the name does not match. |
| Text.EmptyFilterMatchesAll | starter/handlers/item_handler.go:67-69 | Every name matches an empty filter, so skipping an empty `name` changes nothing. |
| Ordering.StrLeTotal | starter/handlers/item_handler.go:77-79 | Any two names are comparable in the `ORDER BY name` order. |
| Ordering.StrLeTrans | starter/handlers/item_handler.go:77-79 | The name order is transitive. |
| Ordering.InOrderTotal | starter/handlers/item_handler.go:77-79 | Any two rows are comparable under every sort key and direction. |
| Ordering.InOrderTrans | starter/handlers/item_handler.go:77-79 | The row order is transitive under every sort key and direction. |
| Ordering.Insert | starter/handlers/item_handler.go:79 | Inserting into sorted rows adds exactly that row and keeps them sorted. |
| Ordering.SortItems | starter/handlers/item_handler.go:77-79 | The ordered rows are a permutation of the input, sorted by the requested key and direction. |
| Models.TagsHold | starter/models/item.go:5-7 | The tags hold iff `Name` is non-empty (`required`) and between 1 and 100 characters long, `Stock` is non-zero (`required`) and at least 0, and `Price` is non-zero (`required`) and above 0. |
| Models.NameErrors | starter/models/item.go:5 | `Name` fails `required` when empty and otherwise `max` when over 100 characters; it contributes no message iff its tags hold. |
| Models.StockErrors | starter/models/item.go:6 | `Stock` fails `required` at 0 and `min` below 0; it contributes no message iff it is at least 1. |
| Models.PriceErrors | starter/models/item.go:7 | `Price` fails `required` at 0 and `gt` below 0; it contributes no message iff it is positive. |
| Models.TagErrors | starter/models/item.go:5-7 | The messages are those of `Name`, `Stock` and `Price`, in that declaration order, one per failing field, so their number is the number of failing fields. There are none iff the `binding` tags hold. `required` is reported on a field iff it has its zero value, `max` on `Name` iff it is over 100 characters, `min` on `Stock` iff it is negative and `gt` on `Price` iff it is negative. |
| ItemMutations.ShouldBindJSON | starter/handlers/item_handler.go:123-125 | Binding succeeds iff the body decodes and the tags hold, and then yields the decoded item. A bound item always passes the handler's stock and price checks. A decoding error is passed through, and a tag failure reports the validator's messages. |
| ItemMutations.Validate | starter/handlers/item_handler.go:128-136 | A payload passes iff its stock is non-negative and its price positive. A negative stock is reported first; then a non-positive price. |
| ItemMutations.Find | starter/handlers/item_handler.go:107 | A row is found iff some row has the identifier, and the row found has it. |
| ItemMutations.GetItemByID | starter/handlers/item_handler.go:103-118 | A failing lookup is a 500 "Database error". Otherwise the reply succeeds iff the identifier is stored, with 200 and that row; else it is a 404 "Item not found". |
| ItemMutations.CreateItem | starter/handlers/item_handler.go:120-150 | The create succeeds iff the body decodes, the tags hold and the write does not fail. On success the payload is appended under the fresh identifier with 201 and its message. Every failure leaves the store unchanged. A binding failure is a 400 with the binder's message, and a failed write is a 500 "Failed to create item". Unique identifiers stay unique. |
| ItemMutations.Replace | starter/handlers/item_handler.go:182 | `Save` replaces every row carrying the identifier and keeps all other rows and their positions. |
| ItemMutations.ReplaceKeepsIds | starter/handlers/item_handler.go:181-182 | Saving under an existing identifier keeps the set of identifiers and their uniqueness. |
| ItemMutations.SaveUpdate | starter/handlers/item_handler.go:165-191 | After the lookup, the update succeeds iff the body decodes, the tags hold and the write does not fail. It saves the payload under the existing identifier with 200. A failure leaves the store unchanged. A binding failure is a 400 with the binder's message, and a failed write is a 500 "Failed to update item". |
| ItemMutations.SaveUpdateRows | starter/handlers/item_handler.go:181-182 | A save keeps the set of identifiers and their uniqueness. A successful save rewrites exactly the rows with the existing identifier as the payload and keeps every other row in place. |
| ItemMutations.UpdateItem | starter/handlers/item_handler.go:152-192 | The update succeeds iff the lookup works, the identifier is stored, the body decodes, the tags hold and the save works. A missing row is a 404 and a failing lookup a 500, both before the payload is looked at. After the lookup, a binding failure is a 400 with the binder's message and a failed save a 500 "Failed to update item". A success rewrites exactly the rows with that identifier under that identifier. The set of identifiers never changes. |
| ItemMutations.RowsAffected | starter/handlers/item_handler.go:198-204 | No row is affected iff no row carries the identifier. |
| ItemMutations.RemoveId | starter/handlers/item_handler.go:198 | Deleting keeps exactly the rows with other identifiers, and removes as many rows as were affected. |
| ItemMutations.RemoveIdUnique | starter/handlers/item_handler.go:198 | Deleting rows from a store with unique identifiers leaves them unique. |
| ItemMutations.DeleteItem | starter/handlers/item_handler.go:194-210 | A failing delete is a 500 and changes nothing. Otherwise the reply is a 404 iff the identifier is absent. A success removes every row with that identifier and keeps all others, so exactly the affected rows are gone, and identifiers that were unique stay unique. |
| ItemMutations.CreateThenGet | starter/handlers/item_handler.go:138-149 | A created item reads back under its fresh identifier. |
| ItemMutations.UpdateThenGet | starter/handlers/item_handler.go:181-190 | After an update, reading the identifier returns the saved payload. |
| ItemMutations.DeleteThenGet | starter/handlers/item_handler.go:198-207 | After a delete, reading the identifier and deleting it again are both 404s. |
| Scenarios.ProductionBurstThenRefill | starter/middleware/rate_limiter.go:55-67 | The production bucket admits five immediate calls, refuses the sixth, and admits a call one second later. |
| Scenarios.BurstBeforeRefillDecisions | starter/middleware/rate_limiter.go:32-45 | Five calls inside the first second and one at its end are all admitted. |
| Scenarios.SixGrantsInOneNanosecond | starter/middleware/rate_limiter.go:32-45 | Six calls are admitted in a window of one nanosecond, exceeding `capacity + W / refillRate`. |
| Scenarios.SecondPageOfFifteen | starter/handlers/item_handler.go:30-98 | With 15 rows and `page=2&page_size=5`, the reply has page 2, size 5, total 15, three pages, both neighbours and five rows. |
| Scenarios.NameFilterLaptop | starter/handlers/item_handler.go:67-69 | `name=laptop` keeps "Gaming Laptop" and "Office Laptop" and drops "Gaming Mouse". |
| Scenarios.MinStockTwenty | starter/handlers/item_handler.go:61-65 | `min_stock=20` keeps only the item with stock 25. |
| Scenarios.CreateNegativeStockRejected | starter/handlers/item_handler.go:123-125 | A payload with stock -5 is refused by the binder's `min=0` tag: 400 with "Key: 'Item.Stock' Error:Field validation for 'Stock' failed on the 'min' tag", and the store is unchanged. |
| Scenarios.AtoiEdgeCases | starter/handlers/item_handler.go:30-31 | "007" scans to 7, "+5" parses as 5, and "12a" is a syntax error that `Atoi` reports as `(0, error)`. |
| Scenarios.LargestPageOverflowsOffset | starter/handlers/item_handler.go:30-76 | `page=9223372036854775807` is accepted as that page with the default size, and the Go offset is negative. |

## Left out

- HTTP and gin framing are not modelled: routing, headers, CORS, JSON encoding
  of replies, `c.Abort`/`c.Next` beyond the `Gate` outcome, `main.go` and
  `routes.go`.
- JWT authentication (`handlers/auth.go`) guards the mutating routes. It is not
  part of this model.
- JSON decoding is not modelled. The decoded `Item` (absent fields zero) or
  the decoder's error message is the `Body` input. The `binding` tags are
  modelled; the validator's behaviour on other tags is not.
- The database layer (`database/database.go`) is an in-memory sequence. Its
  failures are a `DbFault` input, and SQL collation and locking are not
  modelled. What GORM does with a negative offset is not
  modelled either.
- The Redis cache (`database/cache.go`) is not part of this model: no
  modelled handler calls it.
- UUID generation: the fresh identifier is an input that is not yet in the
  store.
- Concurrency: the bucket's mutex serialises `Allow`, so each call is one
  atomic step. Interleavings are not modelled.
- Clocks: `time.Now()` is a parameter, and times are assumed non-decreasing
  along a run. A clock that steps backwards (`now.Sub` negative) is not
  modelled.
- RateLimiter.Allow: requires a non-zero `refillRate`, as do `TokensToAdd`,
  `Refill`, `Admit` and `Run`. `NewTokenBucket` accepts a rate of 0, and the
  Go `Allow` then panics with an integer divide by zero at
  `elapsed / tb.refillRate`. The model leaves that panic out. The middleware's
  own bucket refills once a second, so it never reaches it.
- RateLimiter.Refill: does not model the int64 overflow of
  `tb.tokens + tokensToAdd`, nor the saturation of `now.Sub` at about 292
  years, because both need elapsed times far beyond any process lifetime.
- ItemMutations.Validate: its two 400 replies ("Stock cannot be negative",
  "Price must be greater than 0") are unreachable. The binder already refuses
  a stock below 1 and a price not above 0 (`ShouldBindJSON`), so the handler's
  checks never fire. The model keeps them as written.
- Models.TagsHold: `Price` is a `real` rather than a float64, because only its
  sign is ever inspected. NaN and rounding are not modelled.
- ListQuery.GetAllItems: the reply uses the corrected, non-wrapping offset
  (`Offset`). Once `(page - 1) * pageSize` exceeds `MaxInt64` it differs from
  the Go handler. For example, page 2^60 + 1 with `page_size=16` wraps the Go
  offset to 0, so the database returns the first 16 rows, while the model
  returns none (`OffsetAsWrittenWrapsToZero`).
- ListQuery.ApplyFilter: treats `%`, `_` and `\` in the `name` parameter
  literally. The source splices the lower-cased text into a `LIKE` pattern
  unescaped. There `%` and `_` act as wildcards, and `\` is Postgres's default
  `LIKE` escape character.
- Text.LowerChar, Text.Lower: lower-case ASCII letters only. Go's `strings.ToLower` and the
  database's `LOWER` also fold other letters.
- Ordering.SortItems: the order among rows with equal keys is whatever
  insertion order gives. The database leaves that order unspecified, so the
  contract states only a sorted permutation.

## Findings

| source | as written | input that shows it | evidently intended | confidence | as-written member | corrected member |
|---|---|---|---|---|---|---|
| starter/handlers/item_handler.go:76 | `offset := (page - 1) * pageSize` is computed in 64-bit `int`, and `page` is only bounded below, so the product wraps | `page=9223372036854775807` (the largest value `Atoi` accepts) with the default `page_size` gives offset -20; page 2^60 + 1 with `page_size=16` gives offset 0 and repeats the first page | the offset of page `p` is `(p - 1) * pageSize`, a non-negative row count, so a page far past the end is empty | high that the offset wraps; what the database then does is outside the model; not executed | ListQuery.OffsetAsWrittenGoesNegative | ListQuery.Offset |

=== FILE: go_int.dfy ===
/**
 * Go's 64-bit `int` and the parts of `strconv.Atoi` the handlers rely on.
 * Dafny integers are unbounded; the wrap-around of a Go multiplication and the
 * clamping of an out-of-range parse are written out here.
 */
module GoInt {

  const TwoTo63: int := 0x8000_0000_0000_0000
  const TwoTo64: int := 0x1_0000_0000_0000_0000
  const MinInt64: int := -TwoTo63
  const MaxInt64: int := TwoTo63 - 1
  const MaxUint64: int := TwoTo64 - 1

  predicate InInt64(x: int) {
    MinInt64 <= x <= MaxInt64
  }

  /** Two's-complement truncation of a mathematical integer to a Go `int`. */
  function Wrap64(x: int): (r: int)
    ensures InInt64(r)
    ensures (r - x) % TwoTo64 == 0
    ensures InInt64(x) ==> r == x
  {
    var m := x % TwoTo64;
    if m > MaxInt64 then m - TwoTo64 else m
  }

  /** Outcome of scanning the unsigned digits of a decimal string, left to right. */
  datatype Scan = SyntaxError | RangeError | Digits(n: nat)

  predicate IsDigit(c: char) {
    '0' <= c <= '9'
  }

  function DigitValue(c: char): nat
    requires IsDigit(c)
  {
    c as int - '0' as int
  }

  predicate AllDigits(s: string) {
    forall i :: 0 <= i < |s| ==> IsDigit(s[i])
  }

  /** The value of a digit string read in base 10, with no bound on its size. */
  function DecimalValue(s: string): nat
    requires AllDigits(s)
    decreases |s|
  {
    if |s| == 0 then 0 else DecimalValue(s[..|s| - 1]) * 10 + DigitValue(s[|s| - 1])
  }

  /**
   * What `strconv.ParseUint(s, 10, 64)` promises of its outcome `r`: a digit
   * string has its decimal value when that fits in uint64 and is out of range
   * otherwise; a non-digit is a syntax error and a prefix too large a range
   * error, whichever the scan meets first.
   */
  predicate ScanFacts(s: string, r: Scan) {
    && (r.Digits? ==> |s| > 0 && r.n <= MaxUint64 && AllDigits(s))
    && (|s| > 0 && AllDigits(s) ==>
          r == if DecimalValue(s) <= MaxUint64 then Digits(DecimalValue(s)) else RangeError)
    && (forall i :: (0 <= i < |s| && !IsDigit(s[i]) && AllDigits(s[..i])
                     && DecimalValue(s[..i]) <= MaxUint64) ==> r == SyntaxError)
    && (forall i :: 0 < i <= |s| && AllDigits(s[..i]) && DecimalValue(s[..i]) > MaxUint64 ==>
          r == RangeError)
  }

  /** One step of the scan: the outcome for a prefix, extended by the character `c`. */
  function ScanStep(prefix: Scan, c: char): Scan {
    match prefix
    case SyntaxError => SyntaxError
    case RangeError => RangeError
    case Digits(n) =>
      if !IsDigit(c) then SyntaxError
      else if n * 10 + DigitValue(c) > MaxUint64 then RangeError
      else Digits(n * 10 + DigitValue(c))
  }

  /** A scan step keeps `ScanFacts`: one more character extends what held of the prefix. */
  lemma ScanStepFacts(s: string, prefix: Scan)
    requires |s| > 0
    requires |s| == 1 ==> prefix == Digits(0)
    requires |s| > 1 ==> ScanFacts(s[..|s| - 1], prefix)
    ensures ScanFacts(s, ScanStep(prefix, s[|s| - 1]))
  {
    var init, c := s[..|s| - 1], s[|s| - 1];
    var r := ScanStep(prefix, c);
    assert s == init + [c];
    assert forall i :: 0 <= i <= |init| ==> init[..i] == s[..i];
    if AllDigits(s) {
      assert AllDigits(init);
      assert DecimalValue(s) == DecimalValue(init) * 10 + DigitValue(c);
      if |s| == 1 {
        assert DecimalValue(init) == 0;
      }
    }
    forall i | 0 <= i < |s| && !IsDigit(s[i]) && AllDigits(s[..i]) && DecimalValue(s[..i]) <= MaxUint64
      ensures r == SyntaxError
    {
      if i < |init| {
        assert init[i] == s[i];
      } else if |s| == 1 {
        assert !IsDigit(c);
      } else {
        assert s[..i] == init;
      }
    }
    forall i | 0 < i <= |s| && AllDigits(s[..i]) && DecimalValue(s[..i]) > MaxUint64
      ensures r == RangeError
    {
      if i == |s| {
        assert s[..i] == s;
      }
    }
  }

  /**
   * `strconv.ParseUint(s, 10, 64)`: the first non-digit is a syntax error, the
   * first prefix whose value exceeds 2^64-1 is a range error, whichever comes
   * first; the empty string is a syntax error.
   */
  function ScanUint(s: string): (r: Scan)
    ensures |s| == 0 ==> r == SyntaxError
    ensures r.Digits? ==> |s| > 0 && r.n <= MaxUint64
    ensures r.Digits? ==> AllDigits(s)
    ensures |s| > 0 && AllDigits(s) ==>
              r == if DecimalValue(s) <= MaxUint64 then Digits(DecimalValue(s)) else RangeError
    ensures r == SyntaxError ==> |s| == 0 || !AllDigits(s)
    ensures forall i :: (0 <= i < |s| && !IsDigit(s[i]) && AllDigits(s[..i])
                         && DecimalValue(s[..i]) <= MaxUint64) ==> r == SyntaxError
    ensures forall i :: 0 < i <= |s| && AllDigits(s[..i]) && DecimalValue(s[..i]) > MaxUint64 ==>
              r == RangeError
    ensures |s| > 0 && !IsDigit(s[0]) ==> r == SyntaxError
    decreases |s|
  {
    if |s| == 0 then SyntaxError
    else
      var prefix := if |s| == 1 then Digits(0) else ScanUint(s[..|s| - 1]);
      ScanStepFacts(s, prefix);
      assert |s| > 0 && !IsDigit(s[0]) ==> s[..0] == [] && AllDigits(s[..0]);
      ScanStep(prefix, s[|s| - 1])
  }

  /**
   * The pair `(value, err == nil)` that `strconv.Atoi` returns on a 64-bit
   * platform. A syntax error yields 0; a range error yields the value clamped
   * to the nearest end of the int64 range, which callers that discard the
   * error go on to use.
   */
  datatype Parsed = Parsed(value: int, ok: bool)

  function Atoi(s: string): (r: Parsed)
    ensures InInt64(r.value)
    ensures |s| == 0 ==> r == Parsed(0, false)
    ensures (forall i :: 0 <= i < |s| ==> !IsDigit(s[i])) ==> r == Parsed(0, false)
    ensures |s| > 0 && ScanUint(Unsigned(s)) == SyntaxError ==> r == Parsed(0, false)
    ensures |s| > 0 && ScanUint(Unsigned(s)) == RangeError ==>
              r == Parsed(if s[0] == '-' then MinInt64 else MaxInt64, false)
    ensures |s| > 0 && |Unsigned(s)| > 0 && AllDigits(Unsigned(s)) ==>
              var v := if s[0] == '-' then -(DecimalValue(Unsigned(s)) as int) else DecimalValue(Unsigned(s));
              r == if InInt64(v) then Parsed(v, true)
                   else Parsed(if s[0] == '-' then MinInt64 else MaxInt64, false)
  {
    if |s| == 0 then Parsed(0, false)
    else
      var neg := s[0] == '-';
      var body := Unsigned(s);
      match ScanUint(body)
      case SyntaxError => Parsed(0, false)
      case RangeError => if neg then Parsed(MinInt64, false) else Parsed(MaxInt64, false)
      case Digits(n) =>
        if !neg && n >= TwoTo63 then Parsed(MaxInt64, false)
        else if neg && n > TwoTo63 then Parsed(MinInt64, false)
        else Parsed(if neg then -(n as int) else n, true)
  }

  /** The digits after an optional leading sign. */
  function Unsigned(s: string): (body: string)
    requires |s| > 0
    ensures s == (if s[0] == '-' || s[0] == '+' then [s[0]] + body else body)
  {
    if s[0] == '-' || s[0] == '+' then s[1..] else s
  }

  /** Decimal rendering of a natural number, most significant digit first. */
  function ShowNat(n: nat): (s: string)
    ensures |s| > 0 && forall i :: 0 <= i < |s| ==> IsDigit(s[i])
    decreases n
  {
    var d := ['0' + (n % 10) as char];
    if n < 10 then d else ShowNat(n / 10) + d
  }

  /** Decimal rendering of an integer, as `strconv.Itoa` writes it. */
  function ShowInt(x: int): string {
    if x < 0 then "-" + ShowNat(-x) else ShowNat(x)
  }

  lemma {:induction false} ScanShowNat(n: nat)
    requires n <= MaxUint64
    ensures ScanUint(ShowNat(n)) == Digits(n)
    decreases n
  {
    var s := ShowNat(n);
    var d := ['0' + (n % 10) as char];
    if n < 10 {
      assert s == d;
    } else {
      ScanShowNat(n / 10);
      assert s[..|s| - 1] == ShowNat(n / 10);
      assert s[|s| - 1] == d[0];
    }
  }

  /** Atoi inverts ShowInt on the whole int64 range. */
  lemma AtoiShowInt(x: int)
    requires InInt64(x)
    ensures Atoi(ShowInt(x)) == Parsed(x, true)
  {
    var s := ShowInt(x);
    if x < 0 {
      ScanShowNat(-x);
      assert s[0] == '-' && Unsigned(s) == ShowNat(-x);
      assert ScanUint(Unsigned(s)) == Digits(-x);
    } else {
      ScanShowNat(x);
      assert s == ShowNat(x);
      assert s[0] != '-' && s[0] != '+' by { assert IsDigit(s[0]); }
      assert Unsigned(s) == s;
      assert ScanUint(Unsigned(s)) == Digits(x);
    }
  }
}

=== FILE: http.dfy ===
/** The HTTP outcomes the modelled handlers and middleware produce. */
module Http {

  const StatusOK := 200
  const StatusCreated := 201
  const StatusBadRequest := 400
  const StatusNotFound := 404
  const StatusTooManyRequests := 429
  const StatusInternalServerError := 500

  /** A non-2xx reply: its status code and the `error` field of its JSON body. */
  datatype ErrorReply = ErrorReply(status: int, error: string)

  /** Which store call, if any, reports an error (the store itself is an in-memory sequence). */
  datatype DbFault = Healthy | CountFails | FindFails | FirstFails | WriteFails

  const ItemNotFound := ErrorReply(StatusNotFound, "Item not found")
  const DatabaseError := ErrorReply(StatusInternalServerError, "Database error")
}

=== FILE: item_mutations.dfy ===
/**
 * `GetItemByID`, `CreateItem`, `UpdateItem` and `DeleteItem`
 * (handlers/item_handler.go) over an in-memory store. The request body is an
 * input, as is the fresh UUID a create assigns and which store call, if any,
 * fails.
 */
module ItemMutations {

  import opened Wrappers
  import opened Models
  import opened Http

  /**
   * A request body: JSON that decodes into an `Item`, absent fields taking
   * their zero values, or a body the decoder rejects with `message`.
   */
  datatype Body = Json(item: Item) | Malformed(message: string)

  /** The outcome of `ShouldBindJSON`: a decoded payload or the binder's error message. */
  datatype Bind = Bound(item: Item) | BindError(message: string)

  /** A 2xx reply: status, the `message` field ("" when absent) and the `data` item if any. */
  datatype Reply = Reply(status: int, message: string, data: Option<Item>)

  /** The store after a handler ran, and its reply. */
  datatype Mutation = Mutation(store: seq<Item>, reply: Result<Reply, ErrorReply>)

  const StockNegative := ErrorReply(StatusBadRequest, "Stock cannot be negative")
  const PriceNotPositive := ErrorReply(StatusBadRequest, "Price must be greater than 0")

  /** The handler's own checks on a bound payload: stock first, then price. */
  function Validate(item: Item): (r: Option<ErrorReply>)
    ensures r.None? <==> item.stock >= 0 && item.price > 0.0
    ensures item.stock < 0 ==> r == Some(StockNegative)
    ensures item.stock >= 0 && item.price <= 0.0 ==> r == Some(PriceNotPositive)
  {
    if item.stock < 0 then Some(StockNegative)
    else if item.price <= 0.0 then Some(PriceNotPositive)
    else None
  }

  /**
   * `ShouldBindJSON(&item)`: decode the body, then check the `binding` tags.
   * Whatever it binds already passes the handler's own stock and price checks.
   */
  function ShouldBindJSON(body: Body): (b: Bind)
    ensures b.Bound? <==> body.Json? && TagsHold(body.item)
    ensures b.Bound? ==> b.item == body.item && Validate(b.item).None?
    ensures body.Malformed? ==> b == BindError(body.message)
    ensures body.Json? && !TagsHold(body.item) ==> b == BindError(JoinLines(TagErrors(body.item)))
  {
    match body
    case Malformed(msg) => BindError(msg)
    case Json(item) =>
      var errs := TagErrors(item);
      if |errs| == 0 then Bound(item) else BindError(JoinLines(errs))
  }

  /** `First(&item, "id = ?", id)`: the first row carrying `id`. */
  function Find(store: seq<Item>, id: string): (r: Option<Item>)
    ensures r.Some? <==> id in Ids(store)
    ensures r.Some? ==> r.value in store && r.value.id == id
  {
    if |store| == 0 then None
    else if store[0].id == id then Some(store[0])
    else
      assert forall i :: 1 <= i < |store| ==> store[1..][i - 1] == store[i];
      Find(store[1..], id)
  }

  /** `GetItemByID`: the row, a 404 when no row has the id, a 500 when the lookup fails. */
  function GetItemByID(store: seq<Item>, id: string, fault: DbFault): (r: Result<Reply, ErrorReply>)
    ensures fault == FirstFails ==> r == Failure(DatabaseError)
    ensures fault != FirstFails ==> (r.Success? <==> id in Ids(store))
    ensures fault != FirstFails && id !in Ids(store) ==> r == Failure(ItemNotFound)
    ensures r.Success? ==> r.value.status == StatusOK && r.value.data.Some?
                           && r.value.data.value in store && r.value.data.value.id == id
  {
    if fault == FirstFails then Failure(DatabaseError)
    else match Find(store, id)
      case None => Failure(ItemNotFound)
      case Some(item) => Success(Reply(StatusOK, "", Some(item)))
  }

  /**
   * `CreateItem`: binding errors and the stock and price checks reject the
   * request before the store is written; otherwise the payload is stored under
   * the fresh identifier, whatever identifier it carried.
   */
  function CreateItem(store: seq<Item>, body: Body, freshId: string, fault: DbFault): (m: Mutation)
    requires freshId !in Ids(store)
    ensures m.reply.Success? <==> body.Json? && TagsHold(body.item) && fault != WriteFails
    ensures m.reply.Failure? ==> m.store == store
    ensures ShouldBindJSON(body).BindError? ==>
      m.reply == Failure(ErrorReply(StatusBadRequest, ShouldBindJSON(body).message))
    ensures body.Json? && TagsHold(body.item) && fault == WriteFails ==>
      m.reply == Failure(ErrorReply(StatusInternalServerError, "Failed to create item"))
    ensures m.reply.Success? ==>
      var stored := body.item.(id := freshId);
      && m.reply.value == Reply(StatusCreated, "Item created successfully", Some(stored))
      && m.store == store + [stored]
    ensures UniqueIds(store) ==> UniqueIds(m.store)
  {
    match ShouldBindJSON(body)
    case BindError(msg) => Mutation(store, Failure(ErrorReply(StatusBadRequest, msg)))
    case Bound(item) =>
      match Validate(item)
      case Some(err) => Mutation(store, Failure(err))
      case None =>
        var stored := item.(id := freshId);
        if fault == WriteFails then
          Mutation(store, Failure(ErrorReply(StatusInternalServerError, "Failed to create item")))
        else
          Mutation(store + [stored], Success(Reply(StatusCreated, "Item created successfully", Some(stored))))
  }

  /** `Save(&updated)`: every row carrying `updated.id` becomes `updated`. */
  function Replace(store: seq<Item>, updated: Item): (r: seq<Item>)
    ensures |r| == |store|
    ensures forall i :: 0 <= i < |store| ==>
              r[i] == (if store[i].id == updated.id then updated else store[i])
  {
    seq(|store|, i requires 0 <= i < |store| => if store[i].id == updated.id then updated else store[i])
  }

  /** Two stores whose rows carry the same identifiers position by position. */
  lemma SameIds(a: seq<Item>, b: seq<Item>)
    requires |a| == |b|
    requires forall i :: 0 <= i < |a| ==> a[i].id == b[i].id
    ensures Ids(a) == Ids(b)
    ensures UniqueIds(a) ==> UniqueIds(b)
  {
    forall x | x in Ids(a) ensures x in Ids(b) {
      var i :| 0 <= i < |a| && a[i].id == x;
      assert b[i].id == x;
    }
    forall x | x in Ids(b) ensures x in Ids(a) {
      var i :| 0 <= i < |b| && b[i].id == x;
      assert a[i].id == x;
    }
  }

  /** Replacing rows by one with the same identifier keeps the set of identifiers. */
  lemma ReplaceKeepsIds(store: seq<Item>, updated: Item)
    ensures Ids(Replace(store, updated)) == Ids(store)
    ensures UniqueIds(store) ==> UniqueIds(Replace(store, updated))
  {
    var r := Replace(store, updated);
    forall i | 0 <= i < |store| ensures store[i].id == r[i].id {
      assert r[i] == (if store[i].id == updated.id then updated else store[i]);
    }
    SameIds(store, r);
  }

  /** The part of `UpdateItem` after the row was found: bind, validate, save. */
  function SaveUpdate(store: seq<Item>, existing: Item, body: Body, fault: DbFault): (m: Mutation)
    requires existing.id in Ids(store)
    ensures m.reply.Success? <==> fault != WriteFails && body.Json? && TagsHold(body.item)
    ensures m.reply.Failure? ==> m.store == store
    ensures ShouldBindJSON(body).BindError? ==>
      m.reply == Failure(ErrorReply(StatusBadRequest, ShouldBindJSON(body).message))
    ensures body.Json? && TagsHold(body.item) && fault == WriteFails ==>
      m.reply == Failure(ErrorReply(StatusInternalServerError, "Failed to update item"))
    ensures m.reply.Success? ==>
      && m.reply.value == Reply(StatusOK, "Item updated successfully", Some(body.item.(id := existing.id)))
      && m.store == Replace(store, body.item.(id := existing.id))
  {
    match ShouldBindJSON(body)
    case BindError(msg) => Mutation(store, Failure(ErrorReply(StatusBadRequest, msg)))
    case Bound(item) =>
      match Validate(item)
      case Some(err) => Mutation(store, Failure(err))
      case None =>
        var stored := item.(id := existing.id);
        if fault == WriteFails then
          Mutation(store, Failure(ErrorReply(StatusInternalServerError, "Failed to update item")))
        else
          Mutation(Replace(store, stored), Success(Reply(StatusOK, "Item updated successfully", Some(stored))))
  }

  /**
   * `UpdateItem`: the row must exist, then binding and the stock and price
   * checks must pass, and only then is the row saved, under the identifier of
   * the existing row whatever identifier the payload carried.
   */
  function UpdateItem(store: seq<Item>, id: string, body: Body, fault: DbFault): (m: Mutation)
    ensures m.reply.Success? <==>
      && fault != FirstFails && fault != WriteFails && id in Ids(store)
      && body.Json? && TagsHold(body.item)
    ensures m.reply.Failure? ==> m.store == store
    ensures fault == FirstFails ==> m.reply == Failure(DatabaseError)
    ensures fault != FirstFails && id !in Ids(store) ==> m.reply == Failure(ItemNotFound)
    ensures fault != FirstFails && id in Ids(store) && ShouldBindJSON(body).BindError? ==>
      m.reply == Failure(ErrorReply(StatusBadRequest, ShouldBindJSON(body).message))
    ensures fault == WriteFails && id in Ids(store) && body.Json? && TagsHold(body.item) ==>
      m.reply == Failure(ErrorReply(StatusInternalServerError, "Failed to update item"))
    ensures m.reply.Success? ==>
      var stored := body.item.(id := id);
      && m.reply.value == Reply(StatusOK, "Item updated successfully", Some(stored))
      && |m.store| == |store|
      && (forall i :: 0 <= i < |store| && store[i].id == id ==> m.store[i] == stored)
      && (forall i :: 0 <= i < |store| && store[i].id != id ==> m.store[i] == store[i])
    ensures Ids(m.store) == Ids(store)
    ensures UniqueIds(store) ==> UniqueIds(m.store)
  {
    if fault == FirstFails then Mutation(store, Failure(DatabaseError))
    else match Find(store, id)
      case None => Mutation(store, Failure(ItemNotFound))
      case Some(existing) =>
        SaveUpdateRows(store, existing, body, fault);
        SaveUpdate(store, existing, body, fault)
  }

  /** What a save does to the rows: those with the identifier become the payload, the rest stay. */
  lemma SaveUpdateRows(store: seq<Item>, existing: Item, body: Body, fault: DbFault)
    requires existing.id in Ids(store)
    ensures var m := SaveUpdate(store, existing, body, fault);
      && Ids(m.store) == Ids(store)
      && (UniqueIds(store) ==> UniqueIds(m.store))
      && (m.reply.Success? ==>
            var stored := body.item.(id := existing.id);
            && |m.store| == |store|
            && (forall i :: 0 <= i < |store| && store[i].id == existing.id ==> m.store[i] == stored)
            && (forall i :: 0 <= i < |store| && store[i].id != existing.id ==> m.store[i] == store[i]))
  {
    if body.Json? {
      ReplaceKeepsIds(store, body.item.(id := existing.id));
    }
  }

  /** `RowsAffected` of `Where("id = ?", id).Delete(...)`. */
  function RowsAffected(store: seq<Item>, id: string): (n: nat)
    ensures n == 0 <==> id !in Ids(store)
    ensures n <= |store|
  {
    if |store| == 0 then 0
    else
      assert forall i :: 1 <= i < |store| ==> store[1..][i - 1] == store[i];
      (if store[0].id == id then 1 else 0) + RowsAffected(store[1..], id)
  }

  /** The store with every row carrying `id` deleted, the others kept in order. */
  function RemoveId(store: seq<Item>, id: string): (r: seq<Item>)
    ensures forall x :: x in r <==> x in store && x.id != id
    ensures |r| == |store| - RowsAffected(store, id)
  {
    if |store| == 0 then []
    else
      var rest := RemoveId(store[1..], id);
      assert forall x :: x in store <==> x == store[0] || x in store[1..];
      if store[0].id == id then rest else [store[0]] + rest
  }

  /** Deleting rows keeps the identifiers of the survivors unique. */
  lemma {:induction false} RemoveIdUnique(store: seq<Item>, id: string)
    requires UniqueIds(store)
    ensures UniqueIds(RemoveId(store, id))
    decreases |store|
  {
    if |store| > 0 {
      var tail := store[1..];
      TailUnique(store);
      RemoveIdUnique(tail, id);
      var rest := RemoveId(tail, id);
      if store[0].id != id {
        assert RemoveId(store, id) == [store[0]] + rest;
        forall y | y in rest ensures y.id != store[0].id {
          assert y in tail;
          HeadIdAbsent(store, y);
        }
        ConsUnique(store[0], rest);
      } else {
        assert RemoveId(store, id) == rest;
      }
    }
  }

  lemma TailUnique(store: seq<Item>)
    requires |store| > 0 && UniqueIds(store)
    ensures UniqueIds(store[1..])
  {
    var tail := store[1..];
    forall i, j | 0 <= i < j < |tail| ensures tail[i].id != tail[j].id {
      assert tail[i] == store[i + 1] && tail[j] == store[j + 1];
    }
  }

  lemma HeadIdAbsent(store: seq<Item>, y: Item)
    requires |store| > 0 && UniqueIds(store) && y in store[1..]
    ensures y.id != store[0].id
  {
    var k :| 0 <= k < |store[1..]| && store[1..][k] == y;
    assert store[k + 1] == y;
  }

  lemma ConsUnique(x: Item, rest: seq<Item>)
    requires UniqueIds(rest) && forall y :: y in rest ==> y.id != x.id
    ensures UniqueIds([x] + rest)
  {
    var r := [x] + rest;
    forall i, j | 0 <= i < j < |r| ensures r[i].id != r[j].id {
      assert r[j] == rest[j - 1];
      if i > 0 {
        assert r[i] == rest[i - 1];
      }
    }
  }

  /** `DeleteItem`: deleting an absent id is a 404; a failing delete is a 500. */
  function DeleteItem(store: seq<Item>, id: string, fault: DbFault): (m: Mutation)
    ensures fault == WriteFails ==>
      m == Mutation(store, Failure(ErrorReply(StatusInternalServerError, "Failed to delete item")))
    ensures fault != WriteFails ==> (m.reply == Failure(ItemNotFound) <==> id !in Ids(store))
    ensures m.reply.Failure? ==> m.store == store
    ensures m.reply.Success? ==>
      && m.reply.value == Reply(StatusOK, "Item deleted successfully", None)
      && id !in Ids(m.store)
      && (forall x :: x in m.store <==> x in store && x.id != id)
      && |m.store| == |store| - RowsAffected(store, id)
    ensures UniqueIds(store) ==> UniqueIds(m.store)
  {
    if fault == WriteFails then
      Mutation(store, Failure(ErrorReply(StatusInternalServerError, "Failed to delete item")))
    else if RowsAffected(store, id) == 0 then Mutation(store, Failure(ItemNotFound))
    else
      var r := RemoveId(store, id);
      assert UniqueIds(store) ==> UniqueIds(r) by {
        if UniqueIds(store) { RemoveIdUnique(store, id); }
      }
      Mutation(r, Success(Reply(StatusOK, "Item deleted successfully", None)))
  }

  /** A created item can be read back under its new identifier. */
  lemma CreateThenGet(store: seq<Item>, body: Body, freshId: string)
    requires freshId !in Ids(store)
    requires CreateItem(store, body, freshId, Healthy).reply.Success?
    ensures GetItemByID(CreateItem(store, body, freshId, Healthy).store, freshId, Healthy)
            == Success(Reply(StatusOK, "", Some(body.item.(id := freshId))))
  {
    FindAppend(store, body.item.(id := freshId));
  }

  lemma {:induction false} FindAppend(store: seq<Item>, x: Item)
    requires x.id !in Ids(store)
    ensures Find(store + [x], x.id) == Some(x)
    decreases |store|
  {
    if |store| > 0 {
      assert (store + [x])[1..] == store[1..] + [x];
      assert store[0].id != x.id;
      FindAppend(store[1..], x);
    }
  }

  /** After an update, reading the item returns the saved payload. */
  lemma UpdateThenGet(store: seq<Item>, id: string, body: Body)
    requires UpdateItem(store, id, body, Healthy).reply.Success?
    ensures GetItemByID(UpdateItem(store, id, body, Healthy).store, id, Healthy)
            == Success(Reply(StatusOK, "", Some(body.item.(id := id))))
  {
    var m := UpdateItem(store, id, body, Healthy);
    FindReplaced(store, m.store, body.item.(id := id));
  }

  lemma {:induction false} FindReplaced(store: seq<Item>, r: seq<Item>, stored: Item)
    requires |r| == |store| && stored.id in Ids(store)
    requires forall i :: 0 <= i < |store| && store[i].id == stored.id ==> r[i] == stored
    requires forall i :: 0 <= i < |store| && store[i].id != stored.id ==> r[i] == store[i]
    ensures Find(r, stored.id) == Some(stored)
    decreases |store|
  {
    if store[0].id != stored.id {
      assert r[0] == store[0];
      assert stored.id in Ids(store[1..]) by {
        var i :| 0 <= i < |store| && store[i].id == stored.id;
        assert store[1..][i - 1] == store[i];
      }
      FindReplaced(store[1..], r[1..], stored);
    }
  }

  /** After a delete, the item is gone: reading it is a 404 and deleting it again is a 404. */
  lemma DeleteThenGet(store: seq<Item>, id: string)
    requires DeleteItem(store, id, Healthy).reply.Success?
    ensures GetItemByID(DeleteItem(store, id, Healthy).store, id, Healthy) == Failure(ItemNotFound)
    ensures DeleteItem(DeleteItem(store, id, Healthy).store, id, Healthy).reply == Failure(ItemNotFound)
  {
  }
}

=== FILE: list_query.dfy ===
/**
 * `GetAllItems` (handlers/item_handler.go): query-string normalisation, the
 * `min_stock` and `name` filters, the requested order, and the page arithmetic.
 * The store is an in-memory sequence of rows; `Count` and `Find` over it are the
 * length of the filtered rows and a slice of the sorted filtered rows.
 */
module ListQuery {

  import opened Wrappers
  import opened GoInt
  import opened Models
  import opened Text
  import opened Ordering
  import opened Http

  /** The query string: gin's `c.Query` returns the first value given for a key. */
  type Query = map<string, string>

  /** `c.DefaultQuery`: the value if the key is present (even when empty), else the default. */
  function DefaultQuery(q: Query, key: string, default: string): (v: string)
    ensures key in q ==> v == q[key]
    ensures key !in q ==> v == default
  {
    if key in q then q[key] else default
  }

  /** `c.Query`: the value, or "" when the key is absent. */
  function QueryParam(q: Query, key: string): (v: string)
    ensures key in q ==> v == q[key]
    ensures key !in q ==> v == ""
  {
    DefaultQuery(q, key, "")
  }

  const DefaultPageSize := 10
  const MaxPageSize := 100

  /**
   * `page`: parsed with the error discarded, so an unparsable value reads as 0
   * and an out-of-range one as the clamped int64; anything below 1 becomes 1.
   */
  function PageParam(q: Query): (page: int)
    ensures 1 <= page <= MaxInt64
    ensures "page" !in q ==> page == 1
    ensures Atoi(DefaultQuery(q, "page", "1")).value < 1 ==> page == 1
    ensures Atoi(DefaultQuery(q, "page", "1")).value >= 1 ==> page == Atoi(DefaultQuery(q, "page", "1")).value
    ensures !Atoi(DefaultQuery(q, "page", "1")).ok && page != 1 ==> page == MaxInt64
  {
    var v := Atoi(DefaultQuery(q, "page", "1")).value;
    if v < 1 then 1 else v
  }

  /** `page_size`: parsed like `page`; anything outside [1, 100] becomes 10. */
  function PageSizeParam(q: Query): (size: int)
    ensures 1 <= size <= MaxPageSize
    ensures "page_size" !in q ==> size == DefaultPageSize
    ensures !Atoi(DefaultQuery(q, "page_size", "10")).ok ==> size == DefaultPageSize
    ensures var v := Atoi(DefaultQuery(q, "page_size", "10")).value;
            (1 <= v <= MaxPageSize ==> size == v) && (!(1 <= v <= MaxPageSize) ==> size == DefaultPageSize)
  {
    var v := Atoi(DefaultQuery(q, "page_size", "10")).value;
    if v < 1 || v > MaxPageSize then DefaultPageSize else v
  }

  /** A page number the client writes in decimal comes back unchanged. */
  lemma PageParamRoundTrip(q: Query, page: int)
    requires 1 <= page <= MaxInt64 && "page" in q && q["page"] == ShowInt(page)
    ensures PageParam(q) == page
  {
    AtoiShowInt(page);
  }

  /** A page size in [1, 100] the client writes in decimal comes back unchanged. */
  lemma PageSizeParamRoundTrip(q: Query, size: int)
    requires 1 <= size <= MaxPageSize && "page_size" in q && q["page_size"] == ShowInt(size)
    ensures PageSizeParam(q) == size
  {
    AtoiShowInt(size);
  }

  const ValidSortFields: set<string> := {"name", "stock", "price"}

  /** `sort_by`, whitelisted against the sortable columns; the default is "name". */
  function SortByParam(q: Query): (column: string)
    ensures column in ValidSortFields
    ensures DefaultQuery(q, "sort_by", "name") in ValidSortFields ==> column == DefaultQuery(q, "sort_by", "name")
    ensures DefaultQuery(q, "sort_by", "name") !in ValidSortFields ==> column == "name"
  {
    var s := DefaultQuery(q, "sort_by", "name");
    if s !in ValidSortFields then "name" else s
  }

  /** `sort_order`, either "asc" or "desc"; the default is "asc". */
  function SortOrderParam(q: Query): (order: string)
    ensures order == "asc" || order == "desc"
    ensures var s := DefaultQuery(q, "sort_order", "asc");
            (s == "asc" || s == "desc" ==> order == s) && (s != "asc" && s != "desc" ==> order == "asc")
  {
    var s := DefaultQuery(q, "sort_order", "asc");
    if s != "asc" && s != "desc" then "asc" else s
  }

  /** The column of the `ORDER BY` clause as a sort key; "name" for anything off the whitelist. */
  function SortKeyOf(column: string): (key: SortKey)
    ensures column in ValidSortFields ==> ColumnOf(key) == column
    ensures column !in ValidSortFields ==> key == ByName
  {
    if column == "stock" then ByStock else if column == "price" then ByPrice else ByName
  }

  function ColumnOf(key: SortKey): string {
    match key
    case ByName => "name"
    case ByStock => "stock"
    case ByPrice => "price"
  }

  /** The direction of the `ORDER BY` clause: descending only for "desc". */
  function DirectionOf(order: string): (dir: Direction)
    ensures dir == Desc <==> order == "desc"
  {
    if order == "desc" then Desc else Asc
  }

  /**
   * Every whitelisted column names exactly one sort key, and re-submitting the
   * normalised parameters yields the same order.
   */
  lemma SortParamsStable(q: Query, key: SortKey)
    ensures SortKeyOf(ColumnOf(key)) == key && ColumnOf(key) in ValidSortFields
    ensures ColumnOf(SortKeyOf(SortByParam(q))) == SortByParam(q)
    ensures SortByParam(map["sort_by" := SortByParam(q)]) == SortByParam(q)
    ensures SortOrderParam(map["sort_order" := SortOrderParam(q)]) == SortOrderParam(q)
  {
  }

  /** The optional filters: `min_stock` only when it parses, `name` when non-empty. */
  datatype Filter = Filter(minStock: Option<int>, name: string)

  function FilterParams(q: Query): (f: Filter)
    ensures f.minStock.Some? <==> QueryParam(q, "min_stock") != "" && Atoi(QueryParam(q, "min_stock")).ok
    ensures f.minStock.Some? ==> f.minStock.value == Atoi(QueryParam(q, "min_stock")).value
    ensures f.name == QueryParam(q, "name")
  {
    var raw := QueryParam(q, "min_stock");
    var parsed := Atoi(raw);
    var minStock := if raw != "" && parsed.ok then Some(parsed.value) else None;
    Filter(minStock, QueryParam(q, "name"))
  }

  /** The `WHERE` clause: `stock >= n` and `LOWER(name) LIKE '%' || lower(x) || '%'`. */
  function Matches(item: Item, f: Filter): (r: bool)
    ensures r <==> && (f.minStock.Some? ==> item.stock >= f.minStock.value)
                   && (f.name != "" ==> exists i :: OccursAt(Lower(item.name), Lower(f.name), i))
  {
    && (f.minStock.None? || item.stock >= f.minStock.value)
    && (f.name == "" || ContainsIgnoreCase(item.name, f.name))
  }

  /** The rows the filtered query sees, in store order. */
  function ApplyFilter(store: seq<Item>, f: Filter): (rows: seq<Item>)
    ensures forall x :: x in rows <==> x in store && Matches(x, f)
    ensures forall x :: multiset(rows)[x] == if Matches(x, f) then multiset(store)[x] else 0
    ensures multiset(rows) <= multiset(store)
    ensures |rows| <= |store|
  {
    if |store| == 0 then []
    else
      assert store == [store[0]] + store[1..];
      var rest := ApplyFilter(store[1..], f);
      if Matches(store[0], f) then [store[0]] + rest else rest
  }

  lemma ApplyFilterCons(x: Item, rest: seq<Item>, f: Filter)
    ensures ApplyFilter([x] + rest, f) == (if Matches(x, f) then [x] else []) + ApplyFilter(rest, f)
  {
    assert ([x] + rest)[0] == x && ([x] + rest)[1..] == rest;
  }

  /** With no filter parameters every row is counted. */
  lemma NoFilterKeepsAll(store: seq<Item>, q: Query)
    requires "min_stock" !in q && "name" !in q
    ensures ApplyFilter(store, FilterParams(q)) == store
  {
    if |store| > 0 {
      assert store == [store[0]] + store[1..];
      NoFilterKeepsAll(store[1..], q);
    }
  }

  /** The offset the query skips, computed without overflow. */
  function Offset(page: int, pageSize: int): (offset: nat)
    requires page >= 1 && pageSize >= 1
    ensures offset == (page - 1) * pageSize
  {
    (page - 1) * pageSize
  }

  /** `offset := (page - 1) * pageSize` as Go evaluates it, in 64-bit `int`. */
  function OffsetAsWritten(page: int, pageSize: int): (offset: int)
    requires page >= 1 && pageSize >= 1
    ensures InInt64(offset)
    ensures (offset - (page - 1) * pageSize) % TwoTo64 == 0
  {
    Wrap64((page - 1) * pageSize)
  }

  /** Until the product leaves the int64 range the Go offset is the intended one. */
  lemma OffsetAsWrittenAgrees(page: int, pageSize: int)
    requires page >= 1 && pageSize >= 1 && (page - 1) * pageSize <= MaxInt64
    ensures OffsetAsWritten(page, pageSize) == Offset(page, pageSize)
  {
  }

  /**
   * The largest page number the handler accepts, with the default page size,
   * yields a negative Go offset.
   */
  lemma OffsetAsWrittenGoesNegative()
    ensures OffsetAsWritten(MaxInt64, DefaultPageSize) == -20
  {
    assert (MaxInt64 - 1) * DefaultPageSize == 5 * TwoTo64 - 20;
  }

  /** Page 2^60 + 1 of 16 rows wraps the Go offset back to 0, so it repeats the first page. */
  lemma OffsetAsWrittenWrapsToZero()
    ensures OffsetAsWritten(1152921504606846977, 16) == 0
    ensures Offset(1152921504606846977, 16) == TwoTo64
  {
    assert (1152921504606846977 - 1) * 16 == TwoTo64;
  }

  /** `totalPages`: the ceiling of `total / pageSize`. */
  function TotalPages(total: nat, pageSize: int): (n: nat)
    requires pageSize >= 1
    ensures n * pageSize >= total
    ensures total > 0 ==> (n - 1) * pageSize < total
    ensures total == 0 ==> n == 0
  {
    var n := (total + pageSize - 1) / pageSize;
    assert total + pageSize - 1 == n * pageSize + (total + pageSize - 1) % pageSize;
    n
  }

  /** `hasNext` is true exactly when rows remain after this page. */
  lemma HasNextIffMoreRows(total: nat, page: int, pageSize: int)
    requires page >= 1 && pageSize >= 1
    ensures page < TotalPages(total, pageSize) <==> Offset(page, pageSize) + pageSize < total
  {
    var n := TotalPages(total, pageSize);
    assert Offset(page, pageSize) + pageSize == page * pageSize;
    if page < n {
      MulMonotone(page, n - 1, pageSize);
    } else {
      MulMonotone(n, page, pageSize);
    }
  }

  /** `hasPrev` is true exactly when this page skips some rows. */
  lemma HasPrevIffSkipsRows(page: int, pageSize: int)
    requires page >= 1 && pageSize >= 1
    ensures page > 1 <==> Offset(page, pageSize) > 0
  {
    if page > 1 {
      MulMonotone(1, page - 1, pageSize);
    }
  }

  /** A page holds rows exactly when its number is at most `totalPages`. */
  lemma PageNonEmptyIff(total: nat, page: int, pageSize: int)
    requires page >= 1 && pageSize >= 1
    ensures page <= TotalPages(total, pageSize) <==> Offset(page, pageSize) < total
  {
    var n := TotalPages(total, pageSize);
    if page <= n {
      MulMonotone(page - 1, n - 1, pageSize);
    } else {
      MulMonotone(n, page - 1, pageSize);
    }
  }

  lemma MulMonotone(a: int, b: int, c: int)
    requires a <= b && c >= 0
    ensures a * c <= b * c
  {
    assert b * c - a * c == (b - a) * c;
  }

  /** `Limit(pageSize).Offset(offset)` over the ordered rows. */
  function PageOf(rows: seq<Item>, offset: nat, limit: nat): (r: seq<Item>)
    ensures |r| == if offset >= |rows| then 0 else if limit < |rows| - offset then limit else |rows| - offset
    ensures forall i :: 0 <= i < |r| ==> offset + i < |rows| && r[i] == rows[offset + i]
  {
    if offset >= |rows| then [] else rows[offset..if offset + limit < |rows| then offset + limit else |rows|]
  }

  datatype PaginationResponse = PaginationResponse(
    data: seq<Item>, total: nat, page: int, pageSize: int,
    totalPages: nat, hasNext: bool, hasPrev: bool)

  /** The matching rows in the requested order, before the page is cut out. */
  function OrderedMatches(store: seq<Item>, q: Query): (rows: seq<Item>)
    ensures multiset(rows) == multiset(ApplyFilter(store, FilterParams(q)))
    ensures multiset(rows) <= multiset(store)
    ensures |rows| == |ApplyFilter(store, FilterParams(q))|
    ensures forall x :: x in rows <==> x in store && Matches(x, FilterParams(q))
    ensures Sorted(rows, SortKeyOf(SortByParam(q)), DirectionOf(SortOrderParam(q)))
  {
    var matching := ApplyFilter(store, FilterParams(q));
    var rows := SortItems(matching, SortKeyOf(SortByParam(q)), DirectionOf(SortOrderParam(q)));
    assert forall x :: x in rows <==> x in multiset(matching);
    assert |rows| == |multiset(rows)| == |multiset(matching)| == |matching|;
    rows
  }

  /**
   * The response for page `page` of `rows`: the rows at the page's offset, the
   * total, and flags that say whether rows lie before and after this page.
   */
  function Paginate(rows: seq<Item>, page: int, pageSize: int): (p: PaginationResponse)
    requires page >= 1 && pageSize >= 1
    ensures p.page == page && p.pageSize == pageSize && p.total == |rows|
    ensures |p.data| <= pageSize
    ensures |p.data| == if Offset(page, pageSize) >= |rows| then 0
                        else if pageSize < |rows| - Offset(page, pageSize) then pageSize
                        else |rows| - Offset(page, pageSize)
    ensures forall i :: 0 <= i < |p.data| ==>
              Offset(page, pageSize) + i < |rows| && p.data[i] == rows[Offset(page, pageSize) + i]
    ensures p.totalPages == TotalPages(p.total, pageSize)
    ensures p.hasNext <==> Offset(page, pageSize) + pageSize < p.total
    ensures p.hasPrev <==> Offset(page, pageSize) > 0
    ensures |p.data| > 0 <==> page <= p.totalPages
  {
    var total := |rows|;
    var offset := Offset(page, pageSize);
    var totalPages := TotalPages(total, pageSize);
    HasNextIffMoreRows(total, page, pageSize);
    HasPrevIffSkipsRows(page, pageSize);
    PageNonEmptyIff(total, page, pageSize);
    PaginationResponse(PageOf(rows, offset, pageSize), total, page, pageSize, totalPages,
                       page < totalPages, page > 1)
  }

  /**
   * `GetAllItems`. A failing `Count` or `Find` is a 500; otherwise the reply is
   * the requested page of the matching rows in the requested order.
   */
  function GetAllItems(store: seq<Item>, q: Query, fault: DbFault): (r: Result<PaginationResponse, ErrorReply>)
    ensures fault == CountFails ==> r == Failure(ErrorReply(StatusInternalServerError, "Failed to count items"))
    ensures fault == FindFails ==> r == Failure(ErrorReply(StatusInternalServerError, "Failed to fetch items"))
    ensures fault != CountFails && fault != FindFails ==> r.Success?
    ensures r.Success? ==> r.value == Paginate(OrderedMatches(store, q), PageParam(q), PageSizeParam(q))
    ensures r.Success? ==> r.value.total == |ApplyFilter(store, FilterParams(q))|
    ensures r.Success? ==> 1 <= r.value.page && 1 <= r.value.pageSize <= MaxPageSize
    ensures r.Success? ==> forall x :: x in r.value.data ==> x in store && Matches(x, FilterParams(q))
    ensures r.Success? ==> Sorted(r.value.data, SortKeyOf(SortByParam(q)), DirectionOf(SortOrderParam(q)))
  {
    if fault == CountFails then Failure(ErrorReply(StatusInternalServerError, "Failed to count items"))
    else if fault == FindFails then Failure(ErrorReply(StatusInternalServerError, "Failed to fetch items"))
    else
      var rows := OrderedMatches(store, q);
      var page, pageSize := PageParam(q), PageSizeParam(q);
      PageFacts(rows, page, pageSize, SortKeyOf(SortByParam(q)), DirectionOf(SortOrderParam(q)));
      Success(Paginate(rows, page, pageSize))
  }

  /** The page is a sorted run of the ordered rows. */
  lemma PageFacts(rows: seq<Item>, page: int, pageSize: int, key: SortKey, dir: Direction)
    requires page >= 1 && pageSize >= 1 && Sorted(rows, key, dir)
    ensures Sorted(Paginate(rows, page, pageSize).data, key, dir)
    ensures forall x :: x in Paginate(rows, page, pageSize).data ==> x in rows
  {
    var p := Paginate(rows, page, pageSize);
    PageSorted(rows, p.data, Offset(page, pageSize), key, dir);
    forall x | x in p.data ensures x in rows {
      var i :| 0 <= i < |p.data| && p.data[i] == x;
    }
  }

  lemma PageSorted(rows: seq<Item>, data: seq<Item>, offset: nat, key: SortKey, dir: Direction)
    requires Sorted(rows, key, dir)
    requires forall i {:trigger data[i]} :: 0 <= i < |data| ==> offset + i < |rows| && data[i] == rows[offset + i]
    ensures Sorted(data, key, dir)
  {
    forall i, j | 0 <= i < j < |data| ensures InOrder(data[i], data[j], key, dir) {
      var x, y := data[i], data[j];
      assert offset + i < offset + j < |rows|;
      assert x == rows[offset + i] && y == rows[offset + j];
    }
  }
}

=== FILE: models.dfy ===
/**
 * The persisted inventory record. `Price` is a Go float64; only its sign is
 * ever inspected by the handlers, so it is a `real` here and no floating-point
 * arithmetic is modelled.
 */
module Models {

  datatype Item = Item(id: string, name: string, stock: int, price: real)

  /** The identifiers present in the store. */
  function Ids(store: seq<Item>): (ids: set<string>)
    ensures forall i :: 0 <= i < |store| ==> store[i].id in ids
    ensures forall id :: id in ids ==> exists i :: 0 <= i < |store| && store[i].id == id
  {
    set i | 0 <= i < |store| :: store[i].id
  }

  /** The primary-key constraint of the `items` table. */
  predicate UniqueIds(store: seq<Item>) {
    forall i, j :: 0 <= i < j < |store| ==> store[i].id != store[j].id
  }

  /**
   * The `binding` tags of `Item`. `required` rejects a field's zero value, so
   * `Name` must be non-empty and at most 100 characters long, `Stock` must be
   * non-zero and at least 0, and `Price` non-zero and greater than 0. `ID`
   * carries no tag.
   */
  predicate TagsHold(item: Item): (ok: bool)
    ensures ok <==> && item.name != "" && 1 <= |item.name| && |item.name| <= 100
                    && item.stock != 0 && item.stock >= 0
                    && item.price != 0.0 && item.price > 0.0
  {
    1 <= |item.name| <= 100 && item.stock >= 1 && item.price > 0.0
  }

  /** The validator's message for one field that failed one tag. */
  function TagError(field: string, tag: string): string {
    "Key: 'Item." + field + "' Error:Field validation for '" + field + "' failed on the '" + tag + "' tag"
  }

  /** The message names its field right after "Key: 'Item.", so messages about different fields differ. */
  lemma TagErrorField(field: string, tag: string)
    requires |field| > 0
    ensures |TagError(field, tag)| > 11 && TagError(field, tag)[11] == field[0]
  {
    var prefix := "Key: 'Item.";
    assert TagError(field, tag) == prefix + (field + "' Error:Field validation for '" + field + "' failed on the '" + tag + "' tag");
  }

  /** The validator's error for `Name`, if any: `required` on "", else `max` past 100 characters. */
  function NameErrors(item: Item): (errs: seq<string>)
    ensures |errs| <= 1 && (|errs| == 0 <==> 1 <= |item.name| <= 100)
    ensures item.name == "" ==> errs == [TagError("Name", "required")]
    ensures |item.name| > 100 ==> errs == [TagError("Name", "max")]
  {
    if item.name == "" then [TagError("Name", "required")]
    else if |item.name| > 100 then [TagError("Name", "max")] else []
  }

  /** The validator's error for `Stock`, if any: `required` on 0, else `min` below 0. */
  function StockErrors(item: Item): (errs: seq<string>)
    ensures |errs| <= 1 && (|errs| == 0 <==> item.stock >= 1)
    ensures item.stock == 0 ==> errs == [TagError("Stock", "required")]
    ensures item.stock < 0 ==> errs == [TagError("Stock", "min")]
  {
    if item.stock == 0 then [TagError("Stock", "required")]
    else if item.stock < 0 then [TagError("Stock", "min")] else []
  }

  /** The validator's error for `Price`, if any: `required` on 0, else `gt` below 0. */
  function PriceErrors(item: Item): (errs: seq<string>)
    ensures |errs| <= 1 && (|errs| == 0 <==> item.price > 0.0)
    ensures item.price == 0.0 ==> errs == [TagError("Price", "required")]
    ensures item.price < 0.0 ==> errs == [TagError("Price", "gt")]
  {
    if item.price == 0.0 then [TagError("Price", "required")]
    else if item.price < 0.0 then [TagError("Price", "gt")] else []
  }

  /**
   * The validator's errors for `item`: one per failing field, in declaration
   * order (`Name`, `Stock`, `Price`), naming the first of that field's tags
   * that failed. On `Name`, `min=1` never fires on its own, since `required`
   * already rejects "".
   */
  function TagErrors(item: Item): (errs: seq<string>)
    ensures errs == NameErrors(item) + StockErrors(item) + PriceErrors(item)
    ensures |errs| == (if item.name == "" || |item.name| > 100 then 1 else 0)
                      + (if item.stock <= 0 then 1 else 0) + (if item.price <= 0.0 then 1 else 0)
    ensures |errs| == 0 <==> TagsHold(item)
    ensures |errs| <= 3
    ensures TagError("Name", "required") in errs <==> item.name == ""
    ensures TagError("Name", "max") in errs <==> |item.name| > 100
    ensures TagError("Stock", "required") in errs <==> item.stock == 0
    ensures TagError("Stock", "min") in errs <==> item.stock < 0
    ensures TagError("Price", "required") in errs <==> item.price == 0.0
    ensures TagError("Price", "gt") in errs <==> item.price < 0.0
  {
    TagErrorField("Name", "required");
    TagErrorField("Name", "max");
    TagErrorField("Stock", "required");
    TagErrorField("Stock", "min");
    TagErrorField("Price", "required");
    TagErrorField("Price", "gt");
    var n, s, p := NameErrors(item), StockErrors(item), PriceErrors(item);
    assert forall e :: e in n + s + p <==> e in n || e in s || e in p;
    n + s + p
  }

  /** `ValidationErrors.Error()`: the messages one per line. */
  function JoinLines(lines: seq<string>): (r: string)
    ensures |lines| == 1 ==> r == lines[0]
  {
    if |lines| == 0 then ""
    else if |lines| == 1 then lines[0]
    else lines[0] + "\n" + JoinLines(lines[1..])
  }
}

=== FILE: ordering.dfy ===
/**
 * The `ORDER BY <column> <direction>` the list query asks the store for. Names
 * compare lexicographically by character code; ties between equal keys come
 * back in an order the model does not promise anything about.
 */
module Ordering {

  import opened Models

  datatype SortKey = ByName | ByStock | ByPrice
  datatype Direction = Asc | Desc

  /** Lexicographic order on strings: a proper prefix comes first. */
  predicate StrLe(a: string, b: string)
    decreases |a|
  {
    |a| == 0 || (|b| > 0 && (a[0] < b[0] || (a[0] == b[0] && StrLe(a[1..], b[1..]))))
  }

  lemma {:induction false} StrLeTotal(a: string, b: string)
    ensures StrLe(a, b) || StrLe(b, a)
    decreases |a|
  {
    if |a| > 0 && |b| > 0 && a[0] == b[0] {
      StrLeTotal(a[1..], b[1..]);
    }
  }

  lemma {:induction false} StrLeTrans(a: string, b: string, c: string)
    requires StrLe(a, b) && StrLe(b, c)
    ensures StrLe(a, c)
    decreases |a|
  {
    if |a| > 0 && a[0] == b[0] && b[0] == c[0] {
      StrLeTrans(a[1..], b[1..], c[1..]);
    }
  }

  /** `x`'s key is at most `y`'s. */
  predicate KeyLe(x: Item, y: Item, key: SortKey) {
    match key
    case ByName => StrLe(x.name, y.name)
    case ByStock => x.stock <= y.stock
    case ByPrice => x.price <= y.price
  }

  /** `x` may come before `y` in the requested order. */
  predicate InOrder(x: Item, y: Item, key: SortKey, dir: Direction) {
    if dir == Asc then KeyLe(x, y, key) else KeyLe(y, x, key)
  }

  lemma InOrderTotal(x: Item, y: Item, key: SortKey, dir: Direction)
    ensures InOrder(x, y, key, dir) || InOrder(y, x, key, dir)
  {
    if key == ByName {
      StrLeTotal(x.name, y.name);
    }
  }

  lemma InOrderTrans(x: Item, y: Item, z: Item, key: SortKey, dir: Direction)
    requires InOrder(x, y, key, dir) && InOrder(y, z, key, dir)
    ensures InOrder(x, z, key, dir)
  {
    if key == ByName {
      if dir == Asc {
        StrLeTrans(x.name, y.name, z.name);
      } else {
        StrLeTrans(z.name, y.name, x.name);
      }
    }
  }

  predicate Sorted(s: seq<Item>, key: SortKey, dir: Direction) {
    forall i, j :: 0 <= i < j < |s| ==> InOrder(s[i], s[j], key, dir)
  }

  /** Inserts `x` before the first element it may precede. */
  function Insert(x: Item, s: seq<Item>, key: SortKey, dir: Direction): (r: seq<Item>)
    requires Sorted(s, key, dir)
    ensures multiset(r) == multiset(s) + multiset{x}
    ensures Sorted(r, key, dir)
    decreases |s|
  {
    if |s| == 0 then [x]
    else if InOrder(x, s[0], key, dir) then
      InsertFront(x, s, key, dir);
      [x] + s
    else
      var rest := Insert(x, s[1..], key, dir);
      InsertBehind(x, s, rest, key, dir);
      [s[0]] + rest
  }

  lemma InsertFront(x: Item, s: seq<Item>, key: SortKey, dir: Direction)
    requires Sorted(s, key, dir) && |s| > 0 && InOrder(x, s[0], key, dir)
    ensures Sorted([x] + s, key, dir)
  {
    forall j | 0 < j < |s| ensures InOrder(x, s[j], key, dir) {
      InOrderTrans(x, s[0], s[j], key, dir);
    }
  }

  /** Keeping the head in front when `x` goes further back. */
  lemma InsertBehind(x: Item, s: seq<Item>, rest: seq<Item>, key: SortKey, dir: Direction)
    requires Sorted(s, key, dir) && |s| > 0 && !InOrder(x, s[0], key, dir)
    requires Sorted(rest, key, dir) && multiset(rest) == multiset(s[1..]) + multiset{x}
    ensures multiset([s[0]] + rest) == multiset(s) + multiset{x}
    ensures Sorted([s[0]] + rest, key, dir)
  {
    assert s == [s[0]] + s[1..];
    InOrderTotal(x, s[0], key, dir);
    forall z | z in multiset(rest) ensures InOrder(s[0], z, key, dir) {
      if z != x {
        assert z in multiset(s[1..]);
        var j :| 0 <= j < |s[1..]| && s[1..][j] == z;
        assert s[j + 1] == z;
      }
    }
    ConsSorted(s[0], rest, key, dir);
  }

  lemma ConsSorted(y: Item, s: seq<Item>, key: SortKey, dir: Direction)
    requires Sorted(s, key, dir)
    requires forall z :: z in multiset(s) ==> InOrder(y, z, key, dir)
    ensures Sorted([y] + s, key, dir)
  {
    forall j | 0 <= j < |s| ensures InOrder(y, s[j], key, dir) {
      assert s[j] in multiset(s);
    }
  }

  /** The rows in the requested order: a sorted permutation of the input. */
  function SortItems(s: seq<Item>, key: SortKey, dir: Direction): (r: seq<Item>)
    ensures multiset(r) == multiset(s)
    ensures Sorted(r, key, dir)
    decreases |s|
  {
    if |s| == 0 then []
    else
      assert s == [s[0]] + s[1..];
      Insert(s[0], SortItems(s[1..], key, dir), key, dir)
  }
}

=== FILE: rate_limiter.dfy ===
/**
 * The token-bucket admission limiter (middleware/rate_limiter.go).
 *
 * `time.Time` and `time.Duration` are both counted in nanoseconds. The bucket's
 * mutex makes one call of `Allow` a single critical section, so `Allow` is a pure
 * step from one bucket state to the next, with the current time as an input.
 */
module RateLimiter {

  import Http

  /** One second as a Go `time.Duration`. */
  const Second: nat := 1_000_000_000

  /** The process-wide bucket the middleware builds: 5 tokens, one per second. */
  const ProductionCapacity := 5
  const ProductionRefillRate := Second

  datatype TokenBucket = TokenBucket(tokens: int, capacity: int, refillRate: int, lastRefill: nat)

  /** The state every reachable production bucket is in. */
  predicate Valid(b: TokenBucket) {
    0 <= b.tokens <= b.capacity && b.refillRate > 0
  }

  /** `NewTokenBucket`: a bucket that starts full, stamped with the construction time. */
  function NewTokenBucket(capacity: int, refillRate: int, now: nat): (b: TokenBucket)
    ensures b.tokens == b.capacity == capacity
    ensures b.refillRate == refillRate && b.lastRefill == now
    ensures capacity >= 0 && refillRate > 0 ==> Valid(b)
  {
    TokenBucket(capacity, capacity, refillRate, now)
  }

  /** The package-level `min` helper. */
  function Min(a: int, b: int): (r: int)
    ensures r <= a && r <= b
    ensures r == a || r == b
  {
    if a < b then a else b
  }

  /** Go's integer division, which truncates toward zero. */
  function TruncDiv(a: int, b: int): (q: int)
    requires b != 0
    ensures a >= 0 && b > 0 ==> q == a / b
    ensures a >= 0 && b < 0 ==> q <= 0
  {
    if (a >= 0) == (b > 0) then (if a >= 0 then a / b else (-a) / (-b))
    else -(if a >= 0 then a / (-b) else (-a) / b)
  }

  /** `tokensToAdd`: the number of whole refill intervals since the last refill. */
  function TokensToAdd(b: TokenBucket, now: nat): (n: int)
    requires b.refillRate != 0 && b.lastRefill <= now
    ensures b.refillRate > 0 ==> n == (now - b.lastRefill) / b.refillRate
    ensures b.refillRate > 0 ==> (n > 0 <==> now >= b.lastRefill + b.refillRate)
    ensures b.refillRate < 0 ==> n <= 0
  {
    TruncDiv(now - b.lastRefill, b.refillRate)
  }

  /**
   * The lazy refill at the start of `Allow`. Only a positive number of whole
   * intervals changes the bucket; then `lastRefill` jumps to `now`, dropping
   * whatever part of an interval was left over.
   */
  function Refill(b: TokenBucket, now: nat): (r: TokenBucket)
    requires b.refillRate != 0 && b.lastRefill <= now
    ensures r.capacity == b.capacity && r.refillRate == b.refillRate
    ensures b.lastRefill <= r.lastRefill <= now
    ensures TokensToAdd(b, now) <= 0 ==> r == b
    ensures TokensToAdd(b, now) > 0 ==> r.lastRefill == now
    ensures Valid(b) ==> Valid(r)
  {
    var add := TokensToAdd(b, now);
    if add > 0 then b.(tokens := Min(b.capacity, b.tokens + add), lastRefill := now)
    else b
  }

  /**
   * A refill of a valid bucket adds one token per whole interval since the last
   * refill, up to the capacity.
   */
  lemma RefillAdds(b: TokenBucket, now: nat)
    requires Valid(b) && b.lastRefill <= now
    ensures Refill(b, now).tokens
            == b.tokens + Min(b.capacity - b.tokens, (now - b.lastRefill) / b.refillRate)
  {
  }

  /** The bucket after one call, and whether the call was admitted. */
  datatype Decision = Decision(bucket: TokenBucket, allowed: bool)

  /**
   * `Allow`: refill, then take one token if there is one. The call is admitted
   * exactly when the refilled count is positive; an admitted call removes one
   * token and a denied call leaves the refilled bucket as it is.
   */
  function Allow(b: TokenBucket, now: nat): (d: Decision)
    requires b.refillRate != 0 && b.lastRefill <= now
    ensures d.allowed <==> Refill(b, now).tokens > 0
    ensures d.allowed ==> d.bucket == Refill(b, now).(tokens := Refill(b, now).tokens - 1)
    ensures !d.allowed ==> d.bucket == Refill(b, now)
    ensures b.lastRefill <= d.bucket.lastRefill <= now
    ensures Valid(b) ==> Valid(d.bucket)
  {
    var r := Refill(b, now);
    if r.tokens > 0 then Decision(r.(tokens := r.tokens - 1), true)
    else Decision(r, false)
  }

  /** The reply the middleware writes when the bucket is empty. */
  datatype Gate = Proceed | Reject(status: int, error: string, retryAfter: string)

  const RateLimitError := "Rate limit exceeded. Please try again later."
  const RetryAfter := "1 second"

  /** The middleware's bucket after one request, and what it did with the request. */
  datatype Admission = Admission(bucket: TokenBucket, gate: Gate)

  /**
   * The handler `RateLimiterMiddleware` returns: a denied request is answered
   * with 429 and a one-second retry hint and the chain is aborted; an admitted
   * request is passed on to the next handler untouched.
   */
  function Admit(b: TokenBucket, now: nat): (a: Admission)
    requires b.refillRate != 0 && b.lastRefill <= now
    ensures a.bucket == Allow(b, now).bucket
    ensures a.gate.Proceed? <==> Refill(b, now).tokens > 0
    ensures a.gate.Reject? ==> a.gate == Reject(Http.StatusTooManyRequests, RateLimitError, RetryAfter)
  {
    var d := Allow(b, now);
    if !d.allowed then Admission(d.bucket, Reject(Http.StatusTooManyRequests, RateLimitError, RetryAfter))
    else Admission(d.bucket, Proceed)
  }

  /** The bucket `RateLimiterMiddleware` creates when the routes are set up at `start`. */
  function ProductionBucket(start: nat): (b: TokenBucket)
    ensures Valid(b) && b.capacity == b.tokens == ProductionCapacity
    ensures b.refillRate == ProductionRefillRate && b.lastRefill == start
  {
    NewTokenBucket(ProductionCapacity, ProductionRefillRate, start)
  }
}

=== FILE: rate_limiter_props.dfy ===
/**
 * Properties of the token bucket over sequences of calls. A sequence of calls
 * is a sequence of call times; since the bucket's mutex serialises callers,
 * every interleaving of concurrent callers is such a sequence.
 */
module RateLimiterProps {

  import opened RateLimiter

  /** Call times that never go backwards and never precede `start`. */
  predicate NonDecreasingFrom(start: nat, times: seq<nat>)
    decreases |times|
  {
    |times| == 0 || (start <= times[0] && NonDecreasingFrom(times[0], times[1..]))
  }

  lemma NonDecreasingWeaken(earlier: nat, start: nat, times: seq<nat>)
    requires earlier <= start && NonDecreasingFrom(start, times)
    ensures NonDecreasingFrom(earlier, times)
  {
  }

  lemma NonDecreasingCons(start: nat, t: nat, rest: seq<nat>)
    requires start <= t && NonDecreasingFrom(t, rest)
    ensures NonDecreasingFrom(start, [t] + rest)
  {
    assert ([t] + rest)[0] == t && ([t] + rest)[1..] == rest;
  }

  /** A run given as "all at or after `start`, in non-decreasing order" is a valid call sequence. */
  lemma {:induction false} NonDecreasingFromSorted(start: nat, times: seq<nat>)
    requires forall i :: 0 <= i < |times| ==> start <= times[i]
    requires forall i, j :: 0 <= i <= j < |times| ==> times[i] <= times[j]
    ensures NonDecreasingFrom(start, times)
    decreases |times|
  {
    if |times| > 0 {
      NonDecreasingFromSorted(times[0], times[1..]);
    }
  }

  /** The bucket after a run of calls, and each call's admission decision in order. */
  datatype Trace = Trace(bucket: TokenBucket, decisions: seq<bool>)

  /** Feeds the calls at `times` through `Allow`, one critical section after another. */
  function Run(b: TokenBucket, times: seq<nat>): (tr: Trace)
    requires b.refillRate != 0 && NonDecreasingFrom(b.lastRefill, times)
    ensures |tr.decisions| == |times|
    ensures tr.bucket.capacity == b.capacity && tr.bucket.refillRate == b.refillRate
    ensures b.lastRefill <= tr.bucket.lastRefill
    ensures Valid(b) ==> Valid(tr.bucket)
    decreases |times|
  {
    if |times| == 0 then Trace(b, [])
    else
      var d := Allow(b, times[0]);
      NonDecreasingWeaken(d.bucket.lastRefill, times[0], times[1..]);
      var rest := Run(d.bucket, times[1..]);
      Trace(rest.bucket, [d.allowed] + rest.decisions)
  }

  /** The number of admitted calls. */
  function Granted(decisions: seq<bool>): (n: nat)
    ensures n <= |decisions|
  {
    if |decisions| == 0 then 0
    else (if decisions[0] then 1 else 0) + Granted(decisions[1..])
  }

  /** One call followed by the rest of the run. */
  lemma RunStep(b: TokenBucket, times: seq<nat>)
    requires b.refillRate != 0 && NonDecreasingFrom(b.lastRefill, times) && |times| > 0
    ensures NonDecreasingFrom(Allow(b, times[0]).bucket.lastRefill, times[1..])
    ensures Run(b, times).bucket == Run(Allow(b, times[0]).bucket, times[1..]).bucket
    ensures Run(b, times).decisions[0] == Allow(b, times[0]).allowed
    ensures Run(b, times).decisions[1..] == Run(Allow(b, times[0]).bucket, times[1..]).decisions
    ensures Granted(Run(b, times).decisions)
            == (if Allow(b, times[0]).allowed then 1 else 0)
               + Granted(Run(Allow(b, times[0]).bucket, times[1..]).decisions)
  {
    NonDecreasingWeaken(Allow(b, times[0]).bucket.lastRefill, times[0], times[1..]);
  }

  /** `Run` on a run written as a first call followed by the rest. */
  lemma RunCons(b: TokenBucket, t: nat, rest: seq<nat>)
    requires b.refillRate != 0 && NonDecreasingFrom(b.lastRefill, [t] + rest)
    ensures NonDecreasingFrom(Allow(b, t).bucket.lastRefill, rest)
    ensures Run(b, [t] + rest).decisions == [Allow(b, t).allowed] + Run(Allow(b, t).bucket, rest).decisions
  {
    var times := [t] + rest;
    assert times[0] == t && times[1..] == rest;
    RunStep(b, times);
    var ds := Run(b, times).decisions;
    assert ds == [ds[0]] + ds[1..];
  }

  lemma {:induction false} GrantedAll(ds: seq<bool>)
    requires forall i :: 0 <= i < |ds| ==> ds[i]
    ensures Granted(ds) == |ds|
    decreases |ds|
  {
    if |ds| > 0 {
      GrantedAll(ds[1..]);
    }
  }

  function Last(times: seq<nat>): nat
    requires |times| > 0
  {
    times[|times| - 1]
  }

  lemma DivAddLower(a: nat, c: nat, r: int)
    requires r > 0
    ensures a / r + c / r <= (a + c) / r
  {
    var qa, qc, q := a / r, c / r, (a + c) / r;
    assert a == qa * r + a % r;
    assert c == qc * r + c % r;
    assert a + c == q * r + (a + c) % r;
    assert (q - qa - qc) * r > -r;
    MulLower(q - qa - qc, r);
  }

  lemma DivAddUpper(a: nat, c: nat, r: int)
    requires r > 0 && c < r
    ensures (a + c) / r <= a / r + 1
  {
    var qa, q := a / r, (a + c) / r;
    assert a == qa * r + a % r;
    assert a + c == q * r + (a + c) % r;
    assert (q - qa) * r < 2 * r;
    MulUpper(q - qa, r);
  }

  /** `x * r > -r` with `r > 0` forces `x >= 0`. */
  lemma MulLower(x: int, r: int)
    requires r > 0 && x * r > -r
    ensures x >= 0
  {
    assert (x + 1) * r == x * r + r;
    assert (x + 1) * r > 0;
  }

  /** `x * r < 2 * r` with `r > 0` forces `x <= 1`. */
  lemma MulUpper(x: int, r: int)
    requires r > 0 && x * r < 2 * r
    ensures x <= 1
  {
    assert (x - 2) * r == x * r - 2 * r;
    assert (x - 2) * r < 0;
  }

  lemma DivMonotone(x: nat, y: nat, r: int)
    requires r > 0 && x <= y
    ensures x / r <= y / r
  {
    DivAddLower(x, y - x, r);
  }

  /**
   * The accounting invariant of the bucket: every admitted call is paid for by
   * a token that was either there at the start or added by a refill, and the
   * refills together add at most one token per whole interval between the
   * first `lastRefill` and the final one (a refill drops its leftover time, so
   * it never credits the same interval twice).
   */
  lemma {:induction false} RunAccounting(b: TokenBucket, times: seq<nat>)
    requires Valid(b) && NonDecreasingFrom(b.lastRefill, times)
    ensures Granted(Run(b, times).decisions) + Run(b, times).bucket.tokens
            <= b.tokens + (Run(b, times).bucket.lastRefill - b.lastRefill) / b.refillRate
    ensures |times| > 0 ==> Run(b, times).bucket.lastRefill <= Last(times)
    decreases |times|
  {
    if |times| > 0 {
      var t := times[0];
      var d := Allow(b, t);
      var rest := times[1..];
      RunStep(b, times);
      RunAccounting(d.bucket, rest);
      StepAccounting(b, t);
      var fin := Run(d.bucket, rest).bucket;
      DivAddLower(d.bucket.lastRefill - b.lastRefill, fin.lastRefill - d.bucket.lastRefill, b.refillRate);
      if |rest| > 0 {
        assert Last(rest) == Last(times);
      }
    }
  }

  /**
   * One call of the accounting invariant: the token it takes and the ones it
   * leaves were there before or came with its refill.
   */
  lemma StepAccounting(b: TokenBucket, t: nat)
    requires Valid(b) && b.lastRefill <= t
    ensures (if Allow(b, t).allowed then 1 else 0) + Allow(b, t).bucket.tokens
            <= b.tokens + (Allow(b, t).bucket.lastRefill - b.lastRefill) / b.refillRate
  {
    if TokensToAdd(b, t) > 0 {
      assert Allow(b, t).bucket.lastRefill == t;
    }
  }

  /** An accounting bound up to an earlier instant also holds up to a later one. */
  lemma BoundByLaterEnd(granted: int, left: int, start: int, e: nat, last: nat, r: int)
    requires r > 0 && left >= 0 && e <= last && granted + left <= start + e / r
    ensures granted <= start + last / r
  {
    DivMonotone(e, last, r);
  }

  /**
   * From construction at `t0`, calls at non-decreasing times up to `Last(times)`
   * are admitted at most `capacity + (Last(times) - t0) / refillRate` times.
   */
  lemma ThroughputSinceConstruction(capacity: int, refillRate: int, t0: nat, times: seq<nat>)
    requires capacity >= 0 && refillRate > 0
    requires |times| > 0 && NonDecreasingFrom(t0, times)
    ensures Granted(Run(NewTokenBucket(capacity, refillRate, t0), times).decisions)
            <= capacity + (Last(times) - t0) / refillRate
  {
    var b := NewTokenBucket(capacity, refillRate, t0);
    assert Valid(b) && b.tokens == capacity && b.lastRefill == t0 && b.refillRate == refillRate;
    BoundAfterRefillAt(b, t0, times);
  }

  /**
   * In an arbitrary window `[s, Last(times)]` of a bucket's life the bound is one
   * token looser: a refill that fires inside the window may be paying for an
   * interval that began before it.
   */
  lemma ThroughputInWindow(b: TokenBucket, s: nat, times: seq<nat>)
    requires Valid(b) && b.lastRefill <= s
    requires |times| > 0 && NonDecreasingFrom(s, times)
    ensures Granted(Run(b, times).decisions) <= b.capacity + (Last(times) - s) / b.refillRate + 1
  {
    NonDecreasingWeaken(b.lastRefill, s, times);
    if TokensToAdd(b, times[0]) > 0 {
      WindowOpensWithRefill(b, s, times);
    } else {
      WindowOpensWithoutRefill(b, s, times);
    }
  }

  /**
   * The case of `ThroughputInWindow` where the first call in the window does not
   * refill: the last refill then lies less than one interval before the window.
   */
  lemma WindowOpensWithoutRefill(b: TokenBucket, s: nat, times: seq<nat>)
    requires Valid(b) && b.lastRefill <= s
    requires |times| > 0 && NonDecreasingFrom(s, times)
    requires NonDecreasingFrom(b.lastRefill, times) && TokensToAdd(b, times[0]) <= 0
    ensures Granted(Run(b, times).decisions) <= b.capacity + (Last(times) - s) / b.refillRate + 1
  {
    var t := times[0];
    var r := b.refillRate;
    var L := b.lastRefill;
    assert (t - L) / r <= 0;
    DivZero(t - L, r);
    RunAccounting(b, times);
    var fin := Run(b, times).bucket;
    var g := Granted(Run(b, times).decisions);
    assert g <= b.capacity + (fin.lastRefill - L) / r;
    StartBeforeLast(s, times);
    LateEnd(L, s, fin.lastRefill, Last(times), r);
  }

  lemma {:induction false} StartBeforeLast(start: nat, times: seq<nat>)
    requires |times| > 0 && NonDecreasingFrom(start, times)
    ensures start <= times[0] <= Last(times)
    decreases |times|
  {
    if |times| > 1 {
      StartBeforeLast(times[0], times[1..]);
      assert Last(times[1..]) == Last(times);
    }
  }

  lemma DivZero(x: nat, r: int)
    requires r > 0 && x / r <= 0
    ensures x < r
  {
    if x >= r {
      DivMonotone(r, x, r);
    }
  }

  /** `(e - L) / r <= (last - s) / r + 1` when `L` is less than one interval before `s`. */
  lemma LateEnd(L: nat, s: nat, e: nat, last: nat, r: int)
    requires r > 0 && L <= s && s - L < r && L <= e <= last && s <= last
    ensures (e - L) / r <= (last - s) / r + 1
  {
    DivMonotone(e - L, last - L, r);
    DivAddUpper(last - s, s - L, r);
  }

  /** The case of `ThroughputInWindow` where the first call in the window refills. */
  lemma WindowOpensWithRefill(b: TokenBucket, s: nat, times: seq<nat>)
    requires Valid(b) && b.lastRefill <= s
    requires |times| > 0 && NonDecreasingFrom(s, times)
    requires NonDecreasingFrom(b.lastRefill, times) && TokensToAdd(b, times[0]) > 0
    ensures Granted(Run(b, times).decisions) <= b.capacity + (Last(times) - s) / b.refillRate
  {
    var t := times[0];
    var d := Allow(b, t);
    var rest := times[1..];
    RunStep(b, times);
    StartBeforeLast(s, times);
    SpentWithinCapacity(b, t);
    var a := if d.allowed then 1 else 0;
    var later := Granted(Run(d.bucket, rest).decisions);
    var bound := (Last(times) - s) / b.refillRate;
    assert Granted(Run(b, times).decisions) == a + later;
    assert a + d.bucket.tokens <= b.capacity;
    if |rest| > 0 {
      assert Last(rest) == Last(times);
      BoundAfterRefillAt(d.bucket, s, rest);
      assert later <= d.bucket.tokens + bound;
    } else {
      assert later == 0 && bound >= 0;
    }
  }

  /** After a refill at or after `s`, the rest of a run is bounded by the window since `s`. */
  lemma BoundAfterRefillAt(b: TokenBucket, s: nat, times: seq<nat>)
    requires Valid(b) && s <= b.lastRefill
    requires |times| > 0 && NonDecreasingFrom(b.lastRefill, times)
    ensures Granted(Run(b, times).decisions) <= b.tokens + (Last(times) - s) / b.refillRate
  {
    var granted, left, last := RunTotals(b, times);
    WindowArith(granted, left, b.tokens, b.lastRefill, last, s, Last(times), b.refillRate);
  }

  /** Accounting up to `mid` since `first` bounds the calls by the longer window from `s` to `end`. */
  lemma WindowArith(granted: int, left: int, start: int, first: int, mid: int, s: int, end: int, r: int)
    requires r > 0 && left >= 0 && s <= first <= mid <= end
    requires granted + left <= start + (mid - first) / r
    ensures granted <= start + (end - s) / r
  {
    BoundByLaterEnd(granted, left, start, mid - first, end - s, r);
  }

  /** The accounting of `RunAccounting` as plain numbers: calls admitted, tokens left, final refill time. */
  lemma RunTotals(b: TokenBucket, times: seq<nat>) returns (granted: int, left: int, last: nat)
    requires Valid(b) && |times| > 0 && NonDecreasingFrom(b.lastRefill, times)
    ensures granted == Granted(Run(b, times).decisions)
    ensures 0 <= left && b.lastRefill <= last <= Last(times)
    ensures granted + left <= b.tokens + (last - b.lastRefill) / b.refillRate
  {
    RunAccounting(b, times);
    var tr := Run(b, times);
    granted, left, last := Granted(tr.decisions), tr.bucket.tokens, tr.bucket.lastRefill;
  }

  /** A call that refills leaves at most `capacity` tokens counting the one it took. */
  lemma SpentWithinCapacity(b: TokenBucket, t: nat)
    requires Valid(b) && b.lastRefill <= t && TokensToAdd(b, t) > 0
    ensures Allow(b, t).bucket.lastRefill == t
    ensures (if Allow(b, t).allowed then 1 else 0) + Allow(b, t).bucket.tokens <= b.capacity
  {
  }

  /**
   * Within one refill interval of the last refill nothing is added, so call `i`
   * of a run is admitted exactly when `i` is below the starting token count.
   */
  lemma {:induction false} BurstWithinInterval(b: TokenBucket, times: seq<nat>)
    requires Valid(b) && NonDecreasingFrom(b.lastRefill, times)
    requires forall i :: 0 <= i < |times| ==> times[i] < b.lastRefill + b.refillRate
    ensures forall i :: 0 <= i < |times| ==> (Run(b, times).decisions[i] <==> i < b.tokens)
    decreases |times|
  {
    if |times| > 0 {
      var t := times[0];
      var d := Allow(b, t);
      var rest := times[1..];
      assert TokensToAdd(b, t) == 0;
      RunStep(b, times);
      assert forall i :: 0 <= i < |rest| ==> rest[i] < d.bucket.lastRefill + d.bucket.refillRate by {
        forall i | 0 <= i < |rest| ensures rest[i] < d.bucket.lastRefill + d.bucket.refillRate {
          assert rest[i] == times[i + 1];
        }
      }
      BurstWithinInterval(d.bucket, rest);
      forall i | 1 <= i < |times| ensures Run(b, times).decisions[i] <==> i < b.tokens {
        assert Run(b, times).decisions[i] == Run(d.bucket, rest).decisions[i - 1];
      }
    }
  }

  /**
   * A fresh bucket of capacity `C`, called `C + 1` times before a whole interval
   * has passed, admits the first `C` calls and denies the last.
   */
  lemma FreshBucketBurst(capacity: int, refillRate: int, t0: nat, times: seq<nat>)
    requires capacity >= 0 && refillRate > 0
    requires |times| == capacity + 1 && NonDecreasingFrom(t0, times)
    requires forall i :: 0 <= i < |times| ==> times[i] < t0 + refillRate
    ensures var ds := Run(NewTokenBucket(capacity, refillRate, t0), times).decisions;
            (forall i :: 0 <= i < capacity ==> ds[i]) && !ds[capacity]
  {
    BurstWithinInterval(NewTokenBucket(capacity, refillRate, t0), times);
  }

  /**
   * A call less than one refill interval after the last refill adds nothing:
   * it takes a token if there is one and otherwise leaves the bucket alone.
   */
  lemma TakeWithinInterval(b: TokenBucket, now: nat)
    requires Valid(b) && b.lastRefill <= now < b.lastRefill + b.refillRate
    ensures Allow(b, now).allowed <==> b.tokens > 0
    ensures Allow(b, now).bucket == if b.tokens > 0 then b.(tokens := b.tokens - 1) else b
  {
    DivZeroBelow(now - b.lastRefill, b.refillRate);
  }

  lemma DivZeroBelow(x: nat, r: int)
    requires 0 < r && x < r
    ensures x / r == 0
  {
  }

  /**
   * A bucket with room for at least one token admits any call made a whole
   * refill interval or more after its last refill, even if it was drained.
   */
  lemma AllowedAfterInterval(b: TokenBucket, now: nat)
    requires Valid(b) && b.capacity >= 1
    requires now >= b.lastRefill + b.refillRate
    ensures Allow(b, now).allowed
  {
    DivMonotone(b.refillRate, now - b.lastRefill, b.refillRate);
  }

  /** A drained bucket of capacity 0 never admits anything. */
  lemma {:induction false} ZeroCapacityDeniesAll(b: TokenBucket, times: seq<nat>)
    requires Valid(b) && b.capacity == 0 && NonDecreasingFrom(b.lastRefill, times)
    ensures Granted(Run(b, times).decisions) == 0
    decreases |times|
  {
    if |times| > 0 {
      RunStep(b, times);
      ZeroCapacityDeniesAll(Allow(b, times[0]).bucket, times[1..]);
    }
  }
}

=== FILE: scenarios.dfy ===
/**
 * Concrete runs of the model, mirroring the situations the repository's API
 * tests set up (tests/api_test.go) and the production limiter configuration.
 */
module Scenarios {

  import opened Wrappers
  import opened GoInt
  import opened Models
  import opened Http
  import opened RateLimiter
  import opened RateLimiterProps
  import opened ListQuery
  import opened ItemMutations

  /**
   * The production bucket: five immediate calls pass, the sixth is refused,
   * and one second later a call passes again.
   */
  lemma ProductionBurstThenRefill(t0: nat)
    ensures var times := [t0, t0, t0, t0, t0, t0, t0 + Second];
            && NonDecreasingFrom(t0, times)
            && Run(ProductionBucket(t0), times).decisions == [true, true, true, true, true, false, true]
  {
    var t1 := t0 + Second;
    NonDecreasingFromSorted(t0, [t0, t0, t0, t0, t0, t0, t1]);
    assert [t0, t0, t0, t0, t0, t0, t1] == [t0, t0, t0, t0, t0] + [t0, t1];
    DrainFiveThen(t0, t0, [t0, t1]);
    var b0 := TokenBucket(0, 5, Second, t0);
    TakeWithinInterval(b0, t0);
    RunCons(b0, t0, [t1]);
    RunCons(b0, t1, []);
    AllowedAfterInterval(b0, t1);
  }

  /**
   * Five calls at one instant within the first interval drain the production
   * bucket, one token each.
   */
  lemma DrainFiveThen(t0: nat, t: nat, rest: seq<nat>)
    requires t0 <= t < t0 + Second && NonDecreasingFrom(t, rest)
    ensures NonDecreasingFrom(t0, [t, t, t, t, t] + rest)
    ensures Run(ProductionBucket(t0), [t, t, t, t, t] + rest).decisions
            == [true, true, true, true, true] + Run(TokenBucket(0, 5, Second, t0), rest).decisions
  {
    var b5 := TokenBucket(5, 5, Second, t0);
    var b4 := TokenBucket(4, 5, Second, t0);
    var b3 := TokenBucket(3, 5, Second, t0);
    var b2 := TokenBucket(2, 5, Second, t0);
    var b1 := TokenBucket(1, 5, Second, t0);
    var b0 := TokenBucket(0, 5, Second, t0);
    TakeWithinInterval(b5, t);
    TakeWithinInterval(b4, t);
    TakeWithinInterval(b3, t);
    TakeWithinInterval(b2, t);
    TakeWithinInterval(b1, t);
    var s4 := [t] + rest;
    var s3 := [t] + s4;
    var s2 := [t] + s3;
    var s1 := [t] + s2;
    assert [t, t, t, t, t] + rest == [t] + s1;
    NonDecreasingCons(t, t, rest);
    NonDecreasingCons(t, t, s4);
    NonDecreasingCons(t, t, s3);
    NonDecreasingCons(t, t, s2);
    NonDecreasingCons(t0, t, s1);
    RunCons(b5, t, s1);
    RunCons(b4, t, s2);
    RunCons(b3, t, s3);
    RunCons(b2, t, s4);
    RunCons(b1, t, rest);
  }

  /**
   * Six calls admitted within a single nanosecond: five spent just before the
   * first second elapses and one refilled at it. So the window bound
   * `capacity + W / refillRate` does not hold for windows that do not start at
   * a refill, and the extra `+ 1` of `ThroughputInWindow` is needed.
   */
  lemma SixGrantsInOneNanosecond(times: seq<nat>)
    requires times == [Second - 1, Second - 1, Second - 1, Second - 1, Second - 1, Second]
    ensures && NonDecreasingFrom(0, times)
            && Granted(Run(ProductionBucket(0), times).decisions) == 6
            && 6 > ProductionCapacity + (Last(times) - (Second - 1)) / Second
  {
    BurstBeforeRefillDecisions(0, Second - 1, times);
    GrantedAll(Run(ProductionBucket(0), times).decisions);
    assert Last(times) == Second;
  }

  /**
   * Five calls at any instant before the first interval has elapsed, then one
   * at the end of that interval: all six pass.
   */
  lemma BurstBeforeRefillDecisions(t0: nat, t: nat, times: seq<nat>)
    requires t0 <= t < t0 + Second
    requires times == [t, t, t, t, t, t0 + Second]
    ensures NonDecreasingFrom(t0, times)
    ensures Run(ProductionBucket(t0), times).decisions == [true, true, true, true, true, true]
  {
    var t1 := t0 + Second;
    var b0 := TokenBucket(0, 5, Second, t0);
    assert times == [t, t, t, t, t] + [t1];
    DrainFiveThen(t0, t, [t1]);
    RunCons(b0, t1, []);
    AllowedAfterInterval(b0, t1);
  }

  /**
   * Fifteen rows, `page=2&page_size=5`: rows 6 to 10 of three pages, with a
   * page on either side. (The repository's test expects two rows here; the
   * handler returns five.)
   */
  lemma SecondPageOfFifteen(store: seq<Item>, q: ListQuery.Query)
    requires |store| == 15 && q == map["page" := "2", "page_size" := "5"]
    ensures var r := GetAllItems(store, q, Healthy);
            && r.Success? && r.value.page == 2 && r.value.pageSize == 5
            && r.value.total == 15 && r.value.totalPages == 3
            && r.value.hasNext && r.value.hasPrev && |r.value.data| == 5
  {
    PageTwoSizeFive(q);
    NoFilterKeepsAll(store, q);
    var rows := OrderedMatches(store, q);
    assert |rows| == 15;
    assert GetAllItems(store, q, Healthy) == Success(Paginate(rows, 2, 5));
    PageTwoOfFifteen(rows);
  }

  lemma PageTwoOfFifteen(rows: seq<Item>)
    requires |rows| == 15
    ensures var p := Paginate(rows, 2, 5);
            && p.page == 2 && p.pageSize == 5 && p.total == 15 && p.totalPages == 3
            && p.hasNext && p.hasPrev && |p.data| == 5
  {
    assert Offset(2, 5) == 5;
    assert TotalPages(15, 5) == 3;
  }

  lemma PageTwoSizeFive(q: ListQuery.Query)
    requires q == map["page" := "2", "page_size" := "5"]
    ensures PageParam(q) == 2 && PageSizeParam(q) == 5
    ensures "min_stock" !in q && "name" !in q
  {
    AtoiDigit("2", 2);
    AtoiDigit("5", 5);
    assert DefaultQuery(q, "page", "1") == "2";
    assert DefaultQuery(q, "page_size", "10") == "5";
  }

  lemma AtoiDigit(s: string, d: nat)
    requires d < 10 && s == ['0' + d as char]
    ensures Atoi(s) == Parsed(d, true)
  {
    assert AllDigits(s) && Unsigned(s) == s;
    assert DecimalValue(s) == d by { assert s[..0] == []; }
  }

  const GamingLaptop := Item("1", "Gaming Laptop", 5, 1500.0)
  const OfficeLaptop := Item("2", "Office Laptop", 15, 800.0)
  const GamingMouse := Item("3", "Gaming Mouse", 25, 50.0)

  lemma LoweredNames()
    ensures Text.Lower(GamingLaptop.name) == "gaming laptop"
    ensures Text.Lower(OfficeLaptop.name) == "office laptop"
    ensures Text.Lower(GamingMouse.name) == "gaming mouse"
    ensures Text.Lower("laptop") == "laptop"
  {
    LowerGamingLaptop();
    LowerOfficeLaptop();
    LowerGamingMouse();
  }

  lemma LowerGamingLaptop()
    ensures Text.Lower("Gaming Laptop") == "gaming laptop"
  {
  }

  lemma LowerOfficeLaptop()
    ensures Text.Lower("Office Laptop") == "office laptop"
  {
  }

  lemma LowerGamingMouse()
    ensures Text.Lower("Gaming Mouse") == "gaming mouse"
  {
  }

  lemma LaptopMatches(item: Item, lowered: string)
    requires Text.Lower(item.name) == lowered && |lowered| >= 13 && lowered[7..13] == "laptop"
    ensures Matches(item, Filter(None, "laptop"))
  {
    LoweredNames();
    assert Text.OccursAt(lowered, "laptop", 7);
    Text.ContainsIff(lowered, "laptop");
  }

  lemma NoLaptopInMouse()
    ensures !Text.Contains("gaming mouse", "laptop")
  {
    assert "laptop"[0] == 'l';
    Text.AbsentFirstChar("gaming mouse", "laptop");
  }

  lemma LaptopFilterParams(q: ListQuery.Query)
    requires q == map["name" := "laptop"]
    ensures FilterParams(q) == Filter(None, "laptop")
  {
  }

  lemma LaptopFilterMouse(f: Filter)
    requires f == Filter(None, "laptop")
    ensures ApplyFilter([GamingMouse], f) == []
  {
    LoweredNames();
    NoLaptopInMouse();
    ApplyFilterCons(GamingMouse, [], f);
  }

  lemma LaptopFilterOffice(f: Filter)
    requires f == Filter(None, "laptop")
    ensures ApplyFilter([OfficeLaptop, GamingMouse], f) == [OfficeLaptop]
  {
    LoweredNames();
    LaptopMatches(OfficeLaptop, "office laptop");
    LaptopFilterMouse(f);
    ApplyFilterCons(OfficeLaptop, [GamingMouse], f);
  }

  /** `name=laptop` matches both laptops, whatever their case. */
  lemma NameFilterLaptop(store: seq<Item>, q: ListQuery.Query)
    requires store == [GamingLaptop, OfficeLaptop, GamingMouse] && q == map["name" := "laptop"]
    ensures ApplyFilter(store, FilterParams(q)) == [GamingLaptop, OfficeLaptop]
  {
    LaptopFilterParams(q);
    var f := FilterParams(q);
    LoweredNames();
    LaptopMatches(GamingLaptop, "gaming laptop");
    LaptopFilterOffice(f);
    ApplyFilterCons(GamingLaptop, [OfficeLaptop, GamingMouse], f);
  }

  /**
   * `min_stock=20` keeps only the mouse. (The repository's test expects a
   * total of two here; the handler counts one.)
   */
  lemma MinStockTwenty()
    ensures var store := [GamingLaptop, OfficeLaptop, GamingMouse];
            ApplyFilter(store, FilterParams(map["min_stock" := "20"])) == [GamingMouse]
  {
    assert "20"[..1] == "2";
    assert ScanUint("2") == Digits(2);
    assert ScanUint("20") == Digits(20);
    assert Atoi("20") == Parsed(20, true);
    var f := FilterParams(map["min_stock" := "20"]);
    assert f == Filter(Some(20), "");
    ApplyFilterCons(GamingMouse, [], f);
    ApplyFilterCons(OfficeLaptop, [GamingMouse], f);
    ApplyFilterCons(GamingLaptop, [OfficeLaptop, GamingMouse], f);
  }

  /**
   * A negative stock is refused by the binder's `min=0` tag with 400 and the
   * validator's message, before the handler's own check; nothing is stored.
   */
  lemma CreateNegativeStockRejected(store: seq<Item>, freshId: string)
    requires freshId !in Ids(store)
    ensures CreateItem(store, Json(Item("", "Invalid Item", -5, 100.0)), freshId, Healthy)
            == Mutation(store, Failure(ErrorReply(StatusBadRequest, TagError("Stock", "min"))))
  {
    var item := Item("", "Invalid Item", -5, 100.0);
    assert TagErrors(item) == [TagError("Stock", "min")];
  }

  /** The largest accepted page number makes the Go offset negative. */
  lemma LargestPageOverflowsOffset()
    ensures var q := map["page" := ShowInt(MaxInt64)];
            PageParam(q) == MaxInt64 && PageSizeParam(q) == DefaultPageSize
            && OffsetAsWritten(PageParam(q), PageSizeParam(q)) < 0
  {
    AtoiShowInt(MaxInt64);
    OffsetAsWrittenGoesNegative();
  }

  /** Leading zeros and a sign are read as Go reads them, and a trailing letter spoils the number. */
  lemma AtoiEdgeCases()
    ensures ScanUint("007") == Digits(7)
    ensures Atoi("+5") == Parsed(5, true)
    ensures ScanUint("12a") == SyntaxError && Atoi("12a") == Parsed(0, false)
  {
    assert AllDigits("007") && "007"[..2] == "00" && "00"[..1] == "0";
    assert Unsigned("+5") == "5";
    var s := "12a";
    assert s[..2] == "12" && "12"[..1] == "1" && AllDigits(s[..2]) && !IsDigit(s[2]);
    assert Unsigned(s) == s;
  }
}

=== FILE: text.dfy ===
/**
 * The string operations behind the `name` filter: lower-casing both sides and
 * a substring test (the `LIKE '%' || x || '%'` the query builds). Lower-casing
 * is ASCII only.
 */
module Text {

  function LowerChar(c: char): (r: char)
    ensures 'A' <= c <= 'Z' ==> r as int == c as int + 32
    ensures !('A' <= c <= 'Z') ==> r == c
    ensures !('A' <= r <= 'Z')
  {
    if 'A' <= c <= 'Z' then (c as int + 32) as char else c
  }

  function Lower(s: string): (r: string)
    ensures |r| == |s|
    ensures forall i :: 0 <= i < |s| ==> r[i] == LowerChar(s[i])
  {
    seq(|s|, i requires 0 <= i < |s| => LowerChar(s[i]))
  }

  /** `needle` occurs in `hay` starting at position `i`. */
  predicate OccursAt(hay: string, needle: string, i: int) {
    0 <= i && i + |needle| <= |hay| && hay[i..i + |needle|] == needle
  }

  /** Substring test, scanning the start positions left to right. */
  function Contains(hay: string, needle: string): (r: bool)
    ensures r ==> |needle| <= |hay|
    ensures OccursAt(hay, needle, 0) ==> r
    decreases |hay|
  {
    if |needle| > |hay| then false
    else if hay[..|needle|] == needle then true
    else Contains(hay[1..], needle)
  }

  /** `Contains` holds exactly when the needle occurs at some position. */
  lemma {:induction false} ContainsIff(hay: string, needle: string)
    ensures Contains(hay, needle) <==> exists i :: OccursAt(hay, needle, i)
    decreases |hay|
  {
    if |needle| > |hay| {
      assert forall i :: !OccursAt(hay, needle, i);
    } else if hay[..|needle|] == needle {
      assert OccursAt(hay, needle, 0);
    } else {
      ContainsIff(hay[1..], needle);
      if Contains(hay[1..], needle) {
        var i :| OccursAt(hay[1..], needle, i);
        assert hay[1..][i..i + |needle|] == hay[i + 1..i + 1 + |needle|];
        assert OccursAt(hay, needle, i + 1);
      } else {
        forall i | OccursAt(hay, needle, i) ensures false {
          if i > 0 {
            assert hay[1..][i - 1..i - 1 + |needle|] == hay[i..i + |needle|];
            assert OccursAt(hay[1..], needle, i - 1);
          }
        }
      }
    }
  }

  /** A needle whose first character never appears in `hay` does not occur in it. */
  lemma AbsentFirstChar(hay: string, needle: string)
    requires |needle| > 0 && needle[0] !in hay
    ensures !Contains(hay, needle)
  {
    ContainsIff(hay, needle);
  }

  /** The case-insensitive match the `name` filter performs. */
  function ContainsIgnoreCase(name: string, filter: string): (r: bool)
    ensures r <==> exists i :: OccursAt(Lower(name), Lower(filter), i)
  {
    ContainsIff(Lower(name), Lower(filter));
    Contains(Lower(name), Lower(filter))
  }

  /** Every name matches the empty filter, so skipping an empty filter changes nothing. */
  lemma EmptyFilterMatchesAll(name: string)
    ensures ContainsIgnoreCase(name, "")
  {
    assert OccursAt(Lower(name), Lower(""), 0);
    ContainsIff(Lower(name), Lower(""));
  }
}

=== FILE: wrappers.dfy ===
/** The optional value and the success-or-error value the handler models return. */
module Wrappers {

  /** An optional value: the model of Go's "zero value or missing" outcomes. */
  datatype Option<+T> = None | Some(value: T)

  /** Either a successful value or an error value. */
  datatype Result<+R, +E> = Success(value: R) | Failure(error: E)
}
